=== FILE: README.md ===
# Card counter tracker: a Dafny model

The tracker is a single browser page for following a card game. Every card of
the game sits in one of eight areas:

- your hand and the opponent's hand;
- the deck, split into three subsections by the side of the card's event
  (us, neutral, ussr);
- the discard pile, the removed pile, and the box. The box holds the mid-war
  and late-war cards that are not yet in play.

Clicks move cards between the areas, and bulk buttons do the same for many
cards at once:

- reshuffle the discards into the deck;
- release the mid-war or late-war cards;
- add a placeholder for an unknown opponent card. A placeholder shows the
  deck's average ops.

Every change is saved to the browser's store under the current game id.
Games can be saved, loaded, deleted and imported.

The model follows `script.js` function by function:

- **cardtext.dfy** (`CardText`): the card text `"<ops> - <name>"` and its
  reading-back by `getCardData`. The regular expression is written out as a
  scan over the digits.
- **cards.dfy** (`Cards`): the card, the catalog entry, the eight areas as a
  `Layout` value, and the routing rules:
  - `getDeckSubsection`;
  - the `'deck'` target of `moveCard`;
  - the click dispatch.
- **ordering.dfy** (`Ordering`): the comparator of `sortCardsInContainer`
  (ops ascending, then name) and a stable insertion sort with the same
  outcome as the browser's stable `sort`.
- **stats.dfy** (`Stats`): `calculateAverageOps` and `calculateDeckAverage`.
- **moves.dfy** (`Moves`): each table operation as a function from one layout
  to the next, with the lemmas about it: where cards go, what is conserved,
  and what is sorted. It also has the placeholder refresh of
  `updateLocationAverages`.
- **snapshot.dfy** (`Snapshot`): the saved form of the table
  (`getCardPositions`) and its rebuilding (`restoreCardPositions`), with
  round trips in both directions.
- **store.dfy** (`GameStore`): the key-value store:
  - the games index;
  - the saved games by id;
  - the stored current id;
  - `getCurrentGameId`, `setCurrentGameId` and the saves.
- **session.dfy** (`Session`): the page itself as a class `Tracker`. Its
  fields are:
  - the eight areas, each a `seq` that the methods reassign as the page
    appends and removes elements;
  - the selected hand;
  - the current id held in memory;
  - the title and the notes;
  - the three store entries.

  Each handler is a method. It carries the page's own loops: the deck emptied
  card by card, the discards dealt one at a time, the box filtered, the
  catalog dealt, the areas cleared and rebuilt. Its `ensures` ties the new
  state to the functions of `Moves`, `Snapshot` and `GameStore`, whose
  properties are proved there.

Card ops are `real`. A placeholder's ops is the exact deck average rather than
its one-decimal rendering. Side and war are read from the card's own fields,
which the page keeps in the text's class list and in `data-war`.

## Model

| member | source | states |
|---|---|---|
| CardText.GetCardData | script.js:114-124 | the ops are never negative; wherever `^(\d+(?:\.\d+)?) - (.+)$` matches (`RegexMatchAt`), the result is the number's value and the text after " - "; where it matches nowhere, the result is ops 0 with the whole text as the name |
| CardText.LeadingNumber | script.js:116 | the prefix read is empty exactly when the text does not start with a digit; otherwise it matches `\d+(?:\.\d+)?` as a whole (`IsNumber`) and its value is what `parseFloat` reads from it (`NumberValue`) |
| CardText.NumberAt | script.js:116 | wherever the pattern's number can end (before a space), `LeadingNumber` reads exactly that number, so the match is unique |
| CardText.MatchIsLeadingNumber | script.js:116 | every match of the whole pattern ends its number where `LeadingNumber` ends it |
| CardText.NatToString | script.js:29 | a whole ops value prints as a non-empty run of digits whose decimal value is the ops |
| CardText.FormatCardText | script.js:29 | the text of a card is a number whose value is the ops, then " - ", then the name |
| CardText.ParseFormatRoundTrip | script.js:114-124 | reading back the text `"<ops> - <name>"` built for a whole-number ops and a non-empty single-line name gives exactly that ops and that name |
| CardText.LeadingNumberOfDigits | script.js:116 | digits followed by a space are read as exactly those digits, with no fraction |
| CardText.EmptyNameIsNotParsed | script.js:116-123 | a card text with an empty name does not match, so it reads as ops 0 with the whole text as its name |
| CardText.NoLeadingDigitIsNotParsed | script.js:116-123 | a text that does not start with a digit reads as ops 0 with the whole text as its name |
| Cards.SideOf | script.js:361-362 | the side is US exactly for the event type "us", USSR exactly for "ussr", and neutral for any other event type, none included |
| Cards.SideName | script.js:361-362 | the event type written for a side reads back as that side |
| Cards.WarOrEarly | script.js:6 | a missing war becomes "early"; a war that is present is kept |
| Cards.UnknownCard | script.js:39-61 | a placeholder is marked unknown, shows the given ops and counts as neutral |
| Cards.FromCatalog | script.js:3-37 | a catalog card keeps its name, ops, removability and side; a missing war becomes "early" |
| Cards.DeckFor | script.js:105-112 | each side maps to its own deck subsection, in both directions, and always to a deck subsection |
| Cards.DeckSubsection | script.js:105-112 | "us" goes to deck-us, "ussr" to deck-ussr, any other event type to deck-neutral |
| Cards.Resolve | script.js:220-239 | the target 'deck' resolves to the subsection of the card's side; any other target is itself |
| Cards.Dispatch | script.js:289-318 | the discard icon sends to discard and the remove icon to removed; the minus icon, and only it, deletes; a card-text click sends a deck card to the selected hand and any other card to the deck |
| Cards.ClickRouting | script.js:306-318 | a card-text click from a deck subsection lands in the selected hand; from anywhere else it lands in the deck subsection of the card's side |
| Ordering.CardLe | script.js:128-139 | a card with lower ops always comes first and one with higher ops never does; equal ops fall back to the name order; every card may come before itself |
| Ordering.CardLeTotal | script.js:128-139 | any two cards are comparable under "ops ascending, then name" |
| Ordering.CardLeTransitive | script.js:128-139 | the comparator is transitive |
| Ordering.NameLeTotal | script.js:138 | the name order is total |
| Ordering.NameLeTransitive | script.js:138 | the name order is transitive |
| Ordering.Insert | script.js:126-144 | inserting a card adds exactly that card |
| Ordering.InsertSorted | script.js:126-144 | inserting into a sorted area keeps it sorted |
| Ordering.SortCards | script.js:126-144 | sorting an area keeps exactly its cards, with multiplicity |
| Ordering.SortCardsSorted | script.js:126-144 | a sorted area is ordered by ops ascending, then by name |
| Ordering.SortCardsOfSorted | script.js:126-144 | sorting an area that is already sorted leaves it unchanged |
| Ordering.SortCardsIdempotent | script.js:126-144 | sorting twice gives the same area as sorting once |
| Stats.AverageOps | script.js:146-156 | the average of an empty area is 0; otherwise the average times the number of cards is the ops total |
| Stats.DeckAverage | script.js:158-176 | an empty deck has average 0; otherwise the deck average times the number of deck cards is the sum of the ops totals of the three subsections, so each subsection weighs by its number of cards |
| Stats.SumOpsSorted | script.js:126-156 | sorting an area does not change its ops total |
| Stats.AverageOfSorted | script.js:126-156 | sorting an area does not change its average |
| Stats.AverageBounds | script.js:146-156 | the average of a non-empty area lies between any lower and upper bounds of its cards' ops |
| Moves.CatalogCards | script.js:76-78 | one card per catalog entry, in catalog order |
| Moves.ToDeck | script.js:76-87 | at most one card per catalog entry, every one of them a real card of the given side |
| Moves.ToBox | script.js:76-87 | at most one card per catalog entry, every one of them a real card |
| Moves.ToDeckDealt | script.js:79-87 | placement deals to a side's deck subsection only real, early-war cards of that side |
| Moves.CatalogPartition | script.js:79-92 | every catalog card is dealt to exactly one of the three deck subsections or to the box |
| Moves.SidePartition | script.js:570-587 | every card is dealt to the subsection of exactly one side |
| Moves.EraPartition | script.js:603-605 | the box splits into the cards of an era and the rest |
| Moves.NotInEraSettled | script.js:603-605 | once the cards of an era have left the box, none of that era remains |
| Moves.WithUnknownOps | script.js:178-184 | the area keeps its length and order; each placeholder shows the given average, and every real card is kept as it is |
| Moves.Refresh | script.js:178-184 | every area keeps its order; each placeholder in it shows the deck average of the table before the refresh |
| Moves.RefreshKeepsCards | script.js:178-184 | the refresh keeps each area's length and every real card in place, and changes only the placeholders' ops |
| Moves.RefreshWithoutUnknown | script.js:178-184 | with no placeholder on the table the refresh changes nothing |
| Moves.RefreshTwice | script.js:178-184 | with no placeholder in the deck, refreshing twice is the same as refreshing once |
| Moves.RemoveAt | script.js:221 | taking a card out of an area removes exactly that card |
| Moves.MoveSpec | script.js:220-239 | a card moved to another area is one more copy in the resolved target, a move within one area keeps that area's cards, and every area other than the source and the target is untouched |
| Moves.MoveCardEffect | script.js:220-239 | the card lands in its resolved target, which gains exactly that one copy and is sorted; every area other than the source and the target is untouched; the source loses only that card |
| Moves.MoveCardConserves | script.js:220-239 | a move keeps the multiset of all cards on the table |
| Moves.AddUnknownSpec | script.js:677-684 | the opponent's hand gains exactly one placeholder showing the deck average, and every other area is untouched |
| Moves.AddUnknownEffect | script.js:677-684 | the table gains exactly one placeholder showing the deck average; the opponent's hand is sorted; every other area is untouched |
| Moves.DeleteSpec | script.js:297-300 | the area loses exactly the deleted card, and every other area is untouched |
| Moves.DeleteEffect | script.js:297-300 | the table loses exactly the deleted card; every other area is untouched |
| Moves.AddDiscardsSpec | script.js:546-592 | the discard pile ends empty; your hand, the removed pile and the box are untouched; the opponent's hand holds its cards plus the whole deck pool; the three subsections hold as many cards as the discard pile did |
| Moves.AddDiscardsEffect | script.js:546-567 | the discard pile ends empty; the opponent's hand holds its old cards plus all former deck cards, sorted |
| Moves.AddDiscardsDeck | script.js:569-592 | each deck subsection holds exactly the former discards of its side, sorted |
| Moves.AddDiscardsConserves | script.js:546-592 | `addDiscards` keeps the multiset of all cards on the table |
| Moves.ReleaseSpec | script.js:603-630 | the hands, the discard pile and the removed pile are untouched (where the box cards go is stated by `ReleaseBox`, `ReleaseDeck` and `ReleaseConserves`) |
| Moves.ReleaseBox | script.js:603-620 | after a release no box card is of that era, and every card of another era stays in the box with its multiplicity |
| Moves.ReleaseDeck | script.js:603-630 | each deck subsection gains exactly the released cards of its side and is sorted |
| Moves.ReleaseConserves | script.js:603-630 | a release keeps the multiset of all cards on the table |
| Moves.ReleaseTwice | script.js:603-630 | a second release of the same era moves no card: the release itself is idempotent (the refresh that follows it is not, see `Moves.ReleaseAgainRefreshes`) |
| Moves.ReleaseAgainRefreshes | script.js:178-218 | with a real card of ops 3 and a placeholder in the deck, the refresh after a first "mid" release puts the placeholder at 1.5 and the refresh after a second one at 2.25, so the table does change |
| Moves.RefreshAfterRelease | script.js:178-218 | a deck of one real card and one cheaper placeholder, alone on the table, comes out of a release and refresh with the placeholder first and at the average of the two cards |
| Moves.PlaceCatalogSpec | script.js:76-92 | the hands, the discard pile and the removed pile are untouched (where the catalog cards go is stated by `PlaceCatalogDeck` and `PlaceCatalogConserves`) |
| Moves.PlaceCatalogDeck | script.js:79-97 | each deck subsection gains exactly the early-war catalog cards of its side and is sorted; every card added there is early war and of that side |
| Moves.PlaceCatalogConserves | script.js:79-92 | placement adds exactly the catalog's cards to the table |
| Snapshot.ToRecord | script.js:358-366 | a saved record keeps the card's ops, removability and unknown flag, an event type that reads back as its side, and a war that is never empty; a placeholder is saved under the name "Unknown Card" |
| Snapshot.ToRecordMatchesText | script.js:355-360 | for a real card with a whole-number ops and a non-empty single-line name, the name and ops the record takes from the card are exactly what `getCardData` (script.js:114-124) reads back from the card's text `"<ops> - <name>"` (script.js:29) |
| Snapshot.Records | script.js:354-367 | one record per card of the area, in area order |
| Snapshot.GetCardPositions | script.js:347-372 | every one of the eight areas is saved, each as the records of its cards in order |
| Snapshot.FromRecord | script.js:411-417 | a record flagged unknown or named "Unknown Card" is rebuilt as a placeholder showing the given average; any other record is rebuilt as a real card that saves back as the canonical form of the record |
| Snapshot.CardRoundTrip | script.js:347-424 | a real card whose name is not the placeholder's and whose war is set is saved and rebuilt unchanged |
| Snapshot.RestoreCards | script.js:410-420 | restoring an area lengthens it by one card per record and touches no other area |
| Snapshot.RestoreFrom | script.js:405-420 | an area that is not walked, or that the save does not have, is left as it was |
| Snapshot.RestoreSpec | script.js:405-424 | every area comes back with one card per saved record (none for an area the save does not have), and a card is a placeholder exactly when its record is flagged unknown or named "Unknown Card" |
| Snapshot.RestoreCardsShape | script.js:410-420 | restoring an area appends one rebuilt card per record to what the area held and touches no other area |
| Snapshot.RestoreThenSave | script.js:405-424 | restoring a saved game and saving it again gives back every area's records in order, in canonical form; placeholders show the deck average of the rebuilt table; an area missing from the save comes back empty |
| Snapshot.SaveThenRestore | script.js:347-424 | saving a table without placeholders and restoring it gives back the same table |
| GameStore.ResolveCurrentId | script.js:335-340 | a truthy id held in memory wins; otherwise the stored id is used |
| GameStore.StoredIdAsWritten | script.js:342-345 | the store always holds a string after the call; a present id is stored as it is |
| GameStore.StoredId | script.js:342-345 | corrected store: an entry exists exactly when an id is given, and it is that id |
| GameStore.ClearedIdAsWrittenReadsNull | script.js:342-345 | as written, clearing the current id makes the next look-up return the truthy string "null" |
| GameStore.ClearedIdStaysCleared | script.js:342-345 | with the corrected store, a cleared id reads back as absent, and so as falsy |
| GameStore.IndexOfGame | script.js:462 | `findIndex`: -1 exactly when no entry has the id; otherwise the first entry with the id |
| GameStore.RemoveEntry | script.js:468 | `splice(index, 1)`: the entries before the index stay, the ones after it shift down by one |
| GameStore.RemoveEntryForgets | script.js:462-468 | with unique ids, deleting a game's entry leaves no entry with its id and keeps every other entry |
| GameStore.AppendFreshEntry | script.js:770-776 | an entry listed under a fresh id is found at the end of the index, and the ids stay unique |
| GameStore.ImportedName | script.js:771 | an imported game is listed under its own name when it has a truthy one, otherwise under a non-empty default |
| GameStore.Saved | script.js:374-388 | without a truthy current id nothing is written; with one, that game is written with the title, notes and positions given, and no other game changes |
| GameStore.SavedBeforeSwitch | script.js:487-490 | the save before switching games happens only for a truthy current id different from the game being loaded, and never touches that game's entry |
| Session.ClickSpec | script.js:289-318 | the minus icon takes exactly the clicked card off the table; any other part keeps every card on the table |
| Session.ClickMoves | script.js:289-318 | a click on an icon or on the card text puts the card in its destination, which is sorted, and keeps every card on the table |
| Session.Tracker.constructor | script.js:1 | a fresh page: empty table, your hand selected, no current id in memory, and the store as given |
| Session.Tracker.RefreshUnknownCards | script.js:178-184 | the loop over the areas leaves the table refreshed as `Moves.Refresh` says |
| Session.Tracker.GetCurrentGameId | script.js:335-340 | returns the resolved id and keeps it in memory |
| Session.Tracker.SetCurrentGameId | script.js:342-345 | sets the id in memory; the store holds the corrected `StoredId` |
| Session.Tracker.SaveCurrentGame | script.js:374-388 | the store becomes `Saved` of the current table, title and notes under the resolved id; nothing is written without one |
| Session.Tracker.Autosave | script.js:244-247 | the guarded save that ends each change: the same new store as `SaveCurrentGame` |
| Session.Tracker.MoveCard | script.js:220-248 | the table becomes the refreshed `MoveSpec`, then the autosave |
| Session.Tracker.DeleteUnknownCard | script.js:297-305 | the table becomes the refreshed `DeleteSpec`, then the autosave |
| Session.Tracker.AddUnknownCard | script.js:677-691 | the table becomes the refreshed `AddUnknownSpec`, then the autosave |
| Session.Tracker.SelectHandLocation | script.js:250-264 | the selected hand becomes the given hand |
| Session.Tracker.ClickCard | script.js:266-319 | the table becomes the refreshed `ClickSpec` of the part clicked, then the autosave |
| Session.Tracker.TakeFirstDeckCard | script.js:561-563 | the deck pool loses exactly its first card |
| Session.Tracker.DeckToOpponentHand | script.js:552-564 | the card-by-card loop empties all three deck subsections onto the end of the opponent's hand, in pool order |
| Session.Tracker.DiscardsToDeck | script.js:569-592 | the card-by-card loop empties the discard pile; each deck subsection becomes its side's former discards, sorted |
| Session.Tracker.SortDeckSubsections | script.js:590-592 | each deck subsection is replaced by its sorted form |
| Session.Tracker.Regather | script.js:546-592 | the table becomes `AddDiscardsSpec` of the table before |
| Session.Tracker.AddDiscards | script.js:546-601 | the table becomes the refreshed `AddDiscardsSpec`, then the autosave |
| Session.Tracker.AppendToDeck | script.js:619-620 | a card joins the end of its side's deck subsection and the other two are unchanged |
| Session.Tracker.BoxEraToDeck | script.js:603-621 | the box loop leaves exactly the cards of other eras in the box, in order; each subsection gains the era's cards of its side, in box order |
| Session.Tracker.Release | script.js:603-626 | the table becomes `ReleaseSpec` of the table before |
| Session.Tracker.ReleaseWar | script.js:603-675 | the table becomes the refreshed `ReleaseSpec` of the era, then the autosave |
| Session.Tracker.AddMidWar | script.js:603-638 | `ReleaseWar` of "mid" |
| Session.Tracker.AddLateWar | script.js:640-675 | `ReleaseWar` of "late" |
| Session.Tracker.DealEntry | script.js:77-87 | an early-war entry joins the deck subsection of its side, any other the box |
| Session.Tracker.DealCatalog | script.js:76-88 | the catalog loop appends `ToDeck` of each side to its subsection and `ToBox` to the box |
| Session.Tracker.PlaceCatalog | script.js:76-94 | the table becomes `PlaceCatalogSpec` of the table before |
| Session.Tracker.LoadCards | script.js:63-103 | the table becomes the refreshed `PlaceCatalogSpec`; there is no save |
| Session.Tracker.ClearAllCards | script.js:395-403 | every area is emptied |
| Session.Tracker.RestoreArea | script.js:410-420 | the records of one area are appended as `RestoreCards` says, each placeholder showing the deck average at that moment |
| Session.Tracker.RestoreCardPositions | script.js:405-424 | the table becomes `RestoreSpec` of the saved positions |
| Session.Tracker.SwitchTo | script.js:487-492 | the save before switching as `SavedBeforeSwitch`; the game becomes current in memory and in the store |
| Session.Tracker.ShowGame | script.js:493-521 | a stored game with positions is restored with its title and notes and nothing is saved; otherwise the catalog is placed, the title and notes are the game's or empty, and the game is saved |
| Session.Tracker.LoadDefaults | script.js:504-520 | the catalog is placed onto the table as it is, then the game is saved |
| Session.Tracker.LoadGame | script.js:483-524 | the game is current; either it is restored with its title and notes, or the catalog is placed and the game saved; the store first gets the save made before switching |
| Session.Tracker.DeleteCurrentGame | script.js:457-481 | nothing changes without a truthy id, a listed game or confirmation; otherwise the game leaves the index and the store, and the title, notes and table are emptied; the id is cleared through the corrected setter, so it stays cleared (as written, the source stores "null" and reads it back, see Findings) |
| Session.Tracker.Forget | script.js:468-478 | the entry at the index and the stored game are removed, and the title, notes and table are emptied; the id is cleared through the corrected setter (as written, the source stores "null", see Findings) |
| Session.Tracker.ImportGame | script.js:760-800 | no file changes nothing; a parsed file is listed last under its fresh id, the ids stay unique, and it is stored under that id and loaded as `LoadGame` says: it becomes current in memory and in the store, with its title and notes; the game open before is saved first when it is a different one; the table is restored from its positions, or, without them, the catalog is placed onto the table and the game saved; no other saved game changes |

## Left out

- Rendering is not modelled: the DOM elements, icons, CSS classes, the selected-hand highlight, `updateGameSelector`, and the average labels that `updateLocationAverages` writes for the hands and the deck. The areas are sequences of card values. A card's side and war are its fields, not re-read from its classes.
- The header-click lookup of the card area (script.js:268-286) is not modelled. Only its outcome is: `SelectHandLocation` with a hand.
- `fetch` of the catalog and its error path (script.js:64-102) are not modelled. `LoadCards` and `LoadGame` take the catalog as a parameter.
- The store is not modelled as `localStorage` with JSON text. It is three fields: the index, a map of saved games, and the stored id. `lastModified` timestamps and console logging are dropped.
- `confirm`, `prompt` and `alert` are not modelled. Confirmation is a boolean parameter.
- `createNewGame`, `exportGame`, `FileReader` and the title and notes input handlers are not modelled. Nor is the start-up handler. The import handler is modelled from the parsed file onwards; a file that does not parse is `None`.
- `Date.now()` ids are not modelled. The import takes the new id as a parameter, and requires that no listed game uses it.
- `setTimeout` and `isLoading` are not modelled. The save that `loadGame` schedules after placing the catalog happens at once.
- `toFixed(1)` is not modelled. A placeholder's ops is the exact deck average. The sort and the averages use each card's ops directly, not the ops re-parsed from its text.
- Snapshot.ToRecord: the save takes the name and ops from the card itself, while `getCardPositions` (script.js:355, 359-360) takes what `getCardData` reads back from the card's text. The two differ for a card whose text does not match the pattern: an empty name, a name with a line break, negative ops, or ops that JavaScript prints in exponent form (1e-7, 1e+21). For such a card the page saves ops 0 and the whole text as the name. `Snapshot.RestoreThenSave` and `Snapshot.SaveThenRestore` inherit this difference. `Snapshot.ToRecordMatchesText` proves that the two agree for a real card with whole ops below 10^21 and a non-empty single-line name, so the round trips hold for the page on tables of such cards. A placeholder is saved with the exact deck average, where the page saves the one-decimal `toFixed(1)` rendering read back.
- CardText.ParseFormatRoundTrip: proved for whole-number ops only. Fractional ops and `parseFloat` on them are not part of the round trip. `NatToString` prints every whole number in plain digits, but JavaScript prints whole numbers from 10^21 up in exponent form ("1e+21"), which the pattern does not match, so the round trip stands for the source only below 10^21.
- `localeCompare` is not modelled as a locale collation. Names are ordered lexicographically by code point, which is also a total order.
- Session.Tracker.RestoreCardPositions: walks the eight areas in their fixed page order, not in `Object.entries` order of the saved map. Keys that name no area are ignored.
- Session.Tracker.BoxEraToDeck: the release's `filter` and `forEach` are one loop over the box. Each card of the era leaves and is appended at the moment the `forEach` would move it.
- `Session.Tracker.LoadGame` follows the code: when the game has no saved positions, the catalog is placed onto the table without clearing it first.
- The code has no undo history, no one-shot release flags and no side-first ordering of the discard or removed piles, so the model has none either. `Moves.ReleaseTwice` shows that a second release of the same era moves no card. The refresh that follows each release still re-averages every placeholder over a deck that holds the placeholders' own ops, so a second `addMidWar` can change the ops of a placeholder in the deck (`Moves.ReleaseAgainRefreshes`).
- A catalog entry without a war goes to the box (it is not "early") but is marked "early", so no release ever takes it out. The model keeps this behaviour as written.

## Findings

| source | as written | input that shows it | evidently intended | confidence | as-written member | corrected member |
|---|---|---|---|---|---|---|
| script.js:342-345 | `setCurrentGameId(null)`, called when the current game is deleted (script.js:475), stores the string "null"; `getCurrentGameId` (script.js:335-340) then reads that truthy string back, so the next autosave writes a game under the id "null" | delete the current game (which empties the table), then add an unknown card to the opponent's hand (script.js:688) or type in the title (script.js:804); or select another game, where `loadGame` first saves the empty table under "null" (script.js:488) | clearing the current id leaves no stored id, so no autosave happens until a game is loaded | not executed | GameStore.ClearedIdAsWrittenReadsNull | GameStore.ClearedIdStaysCleared, Session.Tracker.SetCurrentGameId |

=== FILE: cards.dfy ===
/**
  The cards of the tracker and the eight areas that hold them.

  In the browser a card is a DOM element whose text, class list and data
  attributes carry its fields, and an area is a container element found by
  its id. Here a card is a value and the areas are eight sequences.
*/
module Cards {

  /** The side of a card's event; its `eventType`. */
  datatype Side = US | USSR | Neutral

  /**
    The side a card shows: its text carries the class "us" or "ussr", any
    other event type (including "neutral" and none at all) counts as neutral.
  */
  function SideOf(eventType: string): (side: Side)
    ensures side == US <==> eventType == "us"
    ensures side == USSR <==> eventType == "ussr"
    ensures side == Neutral <==> eventType != "us" && eventType != "ussr"
  {
    if eventType == "us" then US
    else if eventType == "ussr" then USSR
    else Neutral
  }

  /** The event type written for a card in a saved game. */
  function SideName(side: Side): (t: string)
    ensures SideOf(t) == side
  {
    match side
    case US => "us"
    case USSR => "ussr"
    case Neutral => "neutral"
  }

  /** A card's war, with a missing one ("" here) read as "early". */
  function WarOrEarly(war: string): (w: string)
    ensures war == "" ==> w == "early"
    ensures war != "" ==> w == war
  {
    if war == "" then "early" else war
  }

  /** One entry of the card catalog (cards.json). An absent `war` is "". */
  datatype CatalogEntry = CatalogEntry(name: string, ops: real, eventType: string, war: string, canBeRemoved: bool)

  /** A card on the table. */
  datatype Card = Card(name: string, ops: real, side: Side, war: string, canBeRemoved: bool, isUnknown: bool)

  const UnknownName: string := "Unknown Card"

  /**
    A placeholder for a card the opponent holds: it shows the deck average
    as its ops, has no event type and no war attribute (so it reads as
    neutral and early) and has no remove icon (so it reads as removable).
  */
  function UnknownCard(ops: real): (c: Card)
    ensures c.isUnknown && c.ops == ops && c.side == Neutral
  {
    Card(UnknownName, ops, Neutral, "early", true, true)
  }

  /** `createCardElement` for a catalog entry. */
  function FromCatalog(e: CatalogEntry): (c: Card)
    ensures !c.isUnknown && c.name == e.name && c.ops == e.ops && c.side == SideOf(e.eventType)
    ensures c.war == WarOrEarly(e.war) && c.canBeRemoved == e.canBeRemoved
  {
    Card(e.name, e.ops, SideOf(e.eventType), WarOrEarly(e.war), e.canBeRemoved, false)
  }

  /** The eight card areas, by element id. */
  datatype Loc = YourHand | OpponentHand | DeckUs | DeckNeutral | DeckUssr | Discard | Removed | Box

  /** The areas in the order the saved game lists them. */
  const LocOrder: seq<Loc> := [YourHand, OpponentHand, DeckUs, DeckNeutral, DeckUssr, Discard, Removed, Box]

  lemma EveryLocListed(l: Loc)
    ensures l in LocOrder
  {
    match l
    case YourHand => assert LocOrder[0] == l;
    case OpponentHand => assert LocOrder[1] == l;
    case DeckUs => assert LocOrder[2] == l;
    case DeckNeutral => assert LocOrder[3] == l;
    case DeckUssr => assert LocOrder[4] == l;
    case Discard => assert LocOrder[5] == l;
    case Removed => assert LocOrder[6] == l;
    case Box => assert LocOrder[7] == l;
  }

  predicate IsDeck(l: Loc) { l == DeckUs || l == DeckNeutral || l == DeckUssr }

  predicate IsHand(l: Loc) { l == YourHand || l == OpponentHand }

  /** `getDeckSubsection` for a side. */
  function DeckFor(side: Side): (l: Loc)
    ensures IsDeck(l)
    ensures side == US <==> l == DeckUs
    ensures side == USSR <==> l == DeckUssr
    ensures side == Neutral <==> l == DeckNeutral
  {
    match side
    case US => DeckUs
    case USSR => DeckUssr
    case Neutral => DeckNeutral
  }

  /** `getDeckSubsection` for an event type string: unknown types go to the neutral deck. */
  function DeckSubsection(eventType: string): (l: Loc)
    ensures eventType == "us" ==> l == DeckUs
    ensures eventType == "ussr" ==> l == DeckUssr
    ensures eventType != "us" && eventType != "ussr" ==> l == DeckNeutral
  {
    DeckFor(SideOf(eventType))
  }

  /** The target of a move: an area, or the virtual "deck" resolved by side. */
  datatype Target = Area(loc: Loc) | Deck

  /** Where `moveCard` puts a card sent to `t`. */
  function Resolve(t: Target, c: Card): (l: Loc)
    ensures t.Deck? ==> l == DeckFor(c.side)
    ensures t.Area? ==> l == t.loc
  {
    match t
    case Area(loc) => loc
    case Deck => DeckFor(c.side)
  }

  /** The part of a card that a click lands on. */
  datatype CardPart = DiscardIcon | RemoveIcon | MinusIcon | CardTextPart

  /** What a click on a card asks for. */
  datatype ClickAction = MoveTo(target: Target) | DeleteCard

  /**
    The click dispatch: the discard and remove icons send the card to the
    discard and removed areas, the minus icon deletes a placeholder, and a
    click on the card text sends a card lying in a deck subsection to the
    selected hand and any other card to the deck.
  */
  function Dispatch(part: CardPart, from: Loc, selectedHand: Loc): (a: ClickAction)
    ensures part == CardTextPart && IsDeck(from) ==> a == MoveTo(Area(selectedHand))
    ensures part == CardTextPart && !IsDeck(from) ==> a == MoveTo(Deck)
    ensures part == DiscardIcon ==> a == MoveTo(Area(Discard))
    ensures part == RemoveIcon ==> a == MoveTo(Area(Removed))
    ensures a == DeleteCard <==> part == MinusIcon
  {
    match part
    case DiscardIcon => MoveTo(Area(Discard))
    case RemoveIcon => MoveTo(Area(Removed))
    case MinusIcon => DeleteCard
    case CardTextPart => if IsDeck(from) then MoveTo(Area(selectedHand)) else MoveTo(Deck)
  }

  /** The contents of the eight areas. */
  datatype Layout = Layout(
    yourHand: seq<Card>, opponentHand: seq<Card>,
    deckUs: seq<Card>, deckNeutral: seq<Card>, deckUssr: seq<Card>,
    discard: seq<Card>, removed: seq<Card>, box: seq<Card>)
  {
    function Get(l: Loc): seq<Card> {
      match l
      case YourHand => yourHand
      case OpponentHand => opponentHand
      case DeckUs => deckUs
      case DeckNeutral => deckNeutral
      case DeckUssr => deckUssr
      case Discard => discard
      case Removed => removed
      case Box => box
    }

    function Put(l: Loc, s: seq<Card>): (r: Layout)
      ensures r.Get(l) == s
      ensures forall m :: m != l ==> r.Get(m) == Get(m)
    {
      match l
      case YourHand => this.(yourHand := s)
      case OpponentHand => this.(opponentHand := s)
      case DeckUs => this.(deckUs := s)
      case DeckNeutral => this.(deckNeutral := s)
      case DeckUssr => this.(deckUssr := s)
      case Discard => this.(discard := s)
      case Removed => this.(removed := s)
      case Box => this.(box := s)
    }

    /** The three deck subsections as one pool, us then neutral then ussr. */
    function DeckCards(): seq<Card> {
      deckUs + deckNeutral + deckUssr
    }

    /** Every card on the table, counted with multiplicity. */
    function AllCards(): multiset<Card> {
      multiset(yourHand) + multiset(opponentHand) + multiset(deckUs) + multiset(deckNeutral)
        + multiset(deckUssr) + multiset(discard) + multiset(removed) + multiset(box)
    }
  }

  const EmptyLayout: Layout := Layout([], [], [], [], [], [], [], [])

  /** Two layouts agree on every area. */
  lemma LayoutExtensionality(a: Layout, b: Layout)
    requires forall l :: a.Get(l) == b.Get(l)
    ensures a == b
  {
    assert a.Get(YourHand) == b.Get(YourHand) && a.Get(OpponentHand) == b.Get(OpponentHand);
    assert a.Get(DeckUs) == b.Get(DeckUs) && a.Get(DeckNeutral) == b.Get(DeckNeutral);
    assert a.Get(DeckUssr) == b.Get(DeckUssr) && a.Get(Discard) == b.Get(Discard);
    assert a.Get(Removed) == b.Get(Removed) && a.Get(Box) == b.Get(Box);
  }

  /** Replacing one area changes the total by what left and what came in. */
  lemma PutAllCards(lay: Layout, l: Loc, s: seq<Card>)
    ensures lay.Put(l, s).AllCards() + multiset(lay.Get(l)) == lay.AllCards() + multiset(s)
  {
  }

  /**
    The click routing of a card text: from a deck subsection to the selected
    hand, from anywhere else to the deck subsection of the card's side.
  */
  lemma ClickRouting(from: Loc, selectedHand: Loc, c: Card)
    ensures Dispatch(CardTextPart, from, selectedHand).MoveTo?
    ensures Resolve(Dispatch(CardTextPart, from, selectedHand).target, c)
      == if IsDeck(from) then selectedHand else DeckFor(c.side)
  {
  }
}

=== FILE: cardtext.dfy ===
/**
  The text shown on a card, "<ops> - <name>", and the parser that reads the
  ops value and the name back out of it (script.js `createCardElement` and
  `getCardData`). The parser follows the regular expression
  `^(\d+(?:\.\d+)?) - (.+)$`; text that does not match reads as ops 0 with
  the whole text as the name.
*/
module CardText {

  /** What `getCardData` returns. */
  datatype CardData = CardData(ops: real, name: string)

  predicate IsDigit(c: char) { '0' <= c <= '9' }

  function DigitValue(c: char): (d: nat)
    requires IsDigit(c)
    ensures d < 10
  {
    c as int - '0' as int
  }

  /** Characters that `.` in a JavaScript regular expression does not match. */
  predicate IsLineTerminator(c: char) {
    c == '\n' || c == '\r' || c == '\U{2028}' || c == '\U{2029}'
  }

  predicate SingleLine(s: string) {
    forall k :: 0 <= k < |s| ==> !IsLineTerminator(s[k])
  }

  predicate AllDigits(s: string) {
    forall k :: 0 <= k < |s| ==> IsDigit(s[k])
  }

  /** Length of the longest prefix of `s` made of decimal digits. */
  function DigitRun(s: string): (n: nat)
    ensures n <= |s|
    ensures AllDigits(s[..n])
    ensures n < |s| ==> !IsDigit(s[n])
  {
    if s == [] || !IsDigit(s[0]) then 0 else 1 + DigitRun(s[1..])
  }

  /** Value of a string of decimal digits, most significant first. */
  function DigitsValue(ds: string): nat
    requires AllDigits(ds)
  {
    if ds == [] then 0 else DigitsValue(ds[..|ds| - 1]) * 10 + DigitValue(ds[|ds| - 1])
  }

  /** Value of the digits after a decimal point. */
  function FractionValue(ds: string): real
    requires AllDigits(ds)
  {
    if ds == [] then 0.0 else (DigitValue(ds[0]) as real + FractionValue(ds[1..])) / 10.0
  }

  function DigitChar(d: nat): (c: char)
    requires d < 10
    ensures IsDigit(c) && DigitValue(c) == d
  {
    ('0' as int + d) as char
  }

  /**
    Decimal notation of a non-negative integer, as JavaScript prints whole
    numbers below 10^21 (larger ones it prints in exponent form).
  */
  function NatToString(n: nat): (s: string)
    ensures |s| > 0 && AllDigits(s)
    ensures DigitsValue(s) == n
  {
    if n < 10 then [DigitChar(n)]
    else
      var s := NatToString(n / 10) + [DigitChar(n % 10)];
      assert s[..|s| - 1] == NatToString(n / 10);
      s
  }

  /** The text of a card with a whole-number ops value (script.js line 29). */
  function FormatCardText(ops: nat, name: string): (text: string)
    ensures |text| == |NatToString(ops)| + 3 + |name|
    ensures var k := |NatToString(ops)|;
      && IsNumber(text[..k]) && NumberValue(text[..k]) == ops as real
      && text[k..] == " - " + name
  {
    var digits := NatToString(ops);
    DigitRunAll(digits);
    assert digits[..|digits|] == digits;
    var text := digits + " - " + name;
    assert text[..|digits|] == digits && text[|digits|..] == " - " + name;
    text
  }

  /**
    `\d+(?:\.\d+)?` matching the whole of `s`: a run of digits, then either
    the end or a '.' followed by digits to the end.
  */
  predicate IsNumber(s: string) {
    var k := DigitRun(s);
    0 < k && (k == |s| || (s[k] == '.' && k + 1 < |s| && AllDigits(s[k + 1..])))
  }

  /** What `parseFloat` reads from a string matching `\d+(?:\.\d+)?`. */
  function NumberValue(s: string): real
    requires IsNumber(s)
  {
    var k := DigitRun(s);
    DigitsValue(s[..k]) as real + if k == |s| then 0.0 else FractionValue(s[k + 1..])
  }

  /**
    The pattern `^(\d+(?:\.\d+)?) - (.+)$` matches `text` with the number
    ending at `i`: the number, then " - ", then a non-empty name with no
    line terminator, up to the end of the text.
  */
  predicate RegexMatchAt(text: string, i: int) {
    0 < i && i + 3 < |text| && IsNumber(text[..i]) && text[i..i + 3] == " - " && SingleLine(text[i + 3..])
  }

  /** The number at the head of a card text: its length in characters and its value. */
  datatype Number = Number(length: nat, value: real)

  /**
    The `\d+(?:\.\d+)?` part of the pattern, read from the start of `text`;
    length 0 means that `text` does not begin with a digit. Once the integer
    digits are read, the regular expression has no other way to match: a
    shorter digit run would be followed by a digit, which is neither '.' nor
    ' ', and the optional fraction must be taken whenever it is present,
    because otherwise the next character is '.' where ' ' is needed
    (`NumberAt` proves this).
  */
  function LeadingNumber(text: string): (n: Number)
    ensures n.length <= |text| && 0.0 <= n.value
    ensures n.length == 0 <==> text == [] || !IsDigit(text[0])
    ensures n.length > 0 ==> IsNumber(text[..n.length]) && n.value == NumberValue(text[..n.length])
  {
    var k := DigitRun(text);
    if k == 0 then Number(0, 0.0)
    else
      var whole := DigitsValue(text[..k]) as real;
      var m := if k < |text| && text[k] == '.' then DigitRun(text[k + 1..]) else 0;
      if m == 0 then
        DigitRunAll(text[..k]);
        assert text[..k][..k] == text[..k];
        Number(k, whole)
      else
        var fraction := text[k + 1..][..m];
        FractionNonNegative(fraction);
        var s := text[..k + 1 + m];
        assert s == s[..k] + s[k..] && s[..k] == text[..k] && s[k] == '.';
        DigitRunStopsAt(s[..k], s[k..]);
        assert s[k + 1..] == fraction;
        Number(k + 1 + m, whole + FractionValue(fraction))
  }

  lemma {:induction false} DigitRunAll(ds: string)
    requires AllDigits(ds)
    ensures DigitRun(ds) == |ds|
  {
    if ds != [] {
      DigitRunAll(ds[1..]);
    }
  }

  /**
    Wherever the pattern can place the end of the number, `LeadingNumber`
    reads exactly that number: the match is unique.
  */
  lemma NumberAt(text: string, i: int)
    requires 0 < i < |text| && IsNumber(text[..i]) && text[i] == ' '
    ensures LeadingNumber(text) == Number(i, NumberValue(text[..i]))
  {
    if DigitRun(text[..i]) == i {
      WholeNumberAt(text, i);
    } else {
      FractionalNumberAt(text, i);
    }
  }

  lemma WholeNumberAt(text: string, i: int)
    requires 0 < i < |text| && IsNumber(text[..i]) && text[i] == ' '
    requires DigitRun(text[..i]) == i
    ensures LeadingNumber(text) == Number(i, NumberValue(text[..i]))
  {
    DigitRunIs(text, i);
  }

  lemma FractionalNumberAt(text: string, i: int)
    requires 0 < i < |text| && IsNumber(text[..i]) && text[i] == ' '
    requires DigitRun(text[..i]) < i
    ensures LeadingNumber(text) == Number(i, NumberValue(text[..i]))
  {
    var s, k := text[..i], DigitRun(text[..i]);
    // The integer digits stop at the '.', and the fraction digits at the space.
    assert s[..k] == text[..k] && text[k] == '.';
    DigitRunIs(text, k);
    var tail := text[k + 1..];
    assert tail[..i - k - 1] == s[k + 1..] && tail[i - k - 1] == ' ';
    DigitRunIs(tail, i - k - 1);
  }

  /** A run of `k` digits followed by a non-digit is the digit run of `text`. */
  lemma DigitRunIs(text: string, k: nat)
    requires k < |text| && AllDigits(text[..k]) && !IsDigit(text[k])
    ensures DigitRun(text) == k
  {
    assert text == text[..k] + text[k..];
    DigitRunStopsAt(text[..k], text[k..]);
  }

  /**
    `getCardData`: when the pattern matches, the ops are the number's value
    and the name the text after " - "; when it does not, the ops are 0 and
    the name is the whole text.
  */
  function GetCardData(text: string): (r: CardData)
    ensures r.ops >= 0.0
    ensures forall i :: RegexMatchAt(text, i) ==> r == CardData(NumberValue(text[..i]), text[i + 3..])
    ensures (forall i :: !RegexMatchAt(text, i)) ==> r == CardData(0.0, text)
  {
    var number := LeadingNumber(text);
    var rest := text[number.length..];
    if number.length > 0 && |rest| > 3 && rest[..3] == " - " && SingleLine(rest[3..]) then
      assert text[number.length..number.length + 3] == rest[..3] && text[number.length + 3..] == rest[3..];
      assert RegexMatchAt(text, number.length);
      MatchIsLeadingNumber(text);
      CardData(number.value, rest[3..])
    else
      MatchIsLeadingNumber(text);
      CardData(0.0, text)
  }

  /** A match of the pattern ends its number where `LeadingNumber` does. */
  lemma MatchIsLeadingNumber(text: string)
    ensures forall i :: RegexMatchAt(text, i) ==> LeadingNumber(text) == Number(i, NumberValue(text[..i]))
  {
    forall i | RegexMatchAt(text, i) ensures LeadingNumber(text) == Number(i, NumberValue(text[..i])) {
      assert text[i] == text[i..i + 3][0];
      NumberAt(text, i);
    }
  }

  lemma {:induction false} FractionNonNegative(ds: string)
    requires AllDigits(ds)
    ensures 0.0 <= FractionValue(ds)
  {
    if ds != [] {
      FractionNonNegative(ds[1..]);
    }
  }

  /**
    Reading back the text of a card with a whole-number ops value and a
    non-empty single-line name gives that ops value and that name.
  */
  lemma ParseFormatRoundTrip(ops: nat, name: string)
    requires name != [] && SingleLine(name)
    ensures GetCardData(FormatCardText(ops, name)) == CardData(ops as real, name)
  {
    var digits := NatToString(ops);
    var text := FormatCardText(ops, name);
    LeadingNumberOfDigits(digits, " - " + name);
    assert text == digits + (" - " + name);
    assert text[|digits|..] == " - " + name;
  }

  lemma {:induction false} DigitRunStopsAt(ds: string, tail: string)
    requires AllDigits(ds)
    requires tail != [] && !IsDigit(tail[0])
    ensures DigitRun(ds + tail) == |ds|
  {
    if ds != [] {
      assert (ds + tail)[1..] == ds[1..] + tail;
      DigitRunStopsAt(ds[1..], tail);
    }
  }

  /** Digits followed by a space read as exactly those digits. */
  lemma LeadingNumberOfDigits(ds: string, tail: string)
    requires ds != [] && AllDigits(ds)
    requires tail != [] && tail[0] == ' '
    ensures LeadingNumber(ds + tail) == Number(|ds|, DigitsValue(ds) as real)
  {
    DigitRunStopsAt(ds, tail);
    assert (ds + tail)[..|ds|] == ds;
  }

  /**
    A card whose name is empty does not match the pattern: its ops read as 0
    and its name as the whole text.
  */
  lemma EmptyNameIsNotParsed(ops: nat)
    ensures GetCardData(FormatCardText(ops, "")) == CardData(0.0, FormatCardText(ops, ""))
  {
    var digits := NatToString(ops);
    LeadingNumberOfDigits(digits, " - ");
    assert FormatCardText(ops, "") == digits + " - ";
  }

  /** Text that does not begin with a digit reads as ops 0 with the whole text as name. */
  lemma NoLeadingDigitIsNotParsed(text: string)
    requires text == [] || !IsDigit(text[0])
    ensures GetCardData(text) == CardData(0.0, text)
  {
  }
}

=== FILE: moves.dfy ===
/**
  What each operation on the card areas does, stated on values: the move of
  one card, the three bulk moves, the placeholder cards, the initial
  placement of the catalog and the refresh of the placeholders' ops that
  follows every change. The methods of `Session.Tracker` are proved to
  produce exactly these layouts; the lemmas here say what the layouts are.
*/
module Moves {
  import opened Cards
  import opened Ordering
  import opened Stats

  // ---------------------------------------------------------------------
  // Selections of cards, keeping their order.

  /** The cards of `s` with event side `side`. */
  function OnSide(s: seq<Card>, side: Side): seq<Card> {
    if s == [] then []
    else OnSide(s[..|s| - 1], side) + if s[|s| - 1].side == side then [s[|s| - 1]] else []
  }

  /** The cards of `s` whose war is `era`. */
  function InEra(s: seq<Card>, era: string): seq<Card> {
    if s == [] then []
    else InEra(s[..|s| - 1], era) + if s[|s| - 1].war == era then [s[|s| - 1]] else []
  }

  /** The cards of `s` whose war is not `era`. */
  function NotInEra(s: seq<Card>, era: string): seq<Card> {
    if s == [] then []
    else NotInEra(s[..|s| - 1], era) + if s[|s| - 1].war != era then [s[|s| - 1]] else []
  }

  lemma OnSideSnoc(s: seq<Card>, c: Card)
    ensures forall side :: OnSide(s + [c], side) == OnSide(s, side) + if c.side == side then [c] else []
  {
    assert (s + [c])[..|s + [c]| - 1] == s;
  }

  lemma EraSnoc(s: seq<Card>, c: Card, era: string)
    ensures InEra(s + [c], era) == InEra(s, era) + if c.war == era then [c] else []
    ensures NotInEra(s + [c], era) == NotInEra(s, era) + if c.war != era then [c] else []
  {
    assert (s + [c])[..|s + [c]| - 1] == s;
  }

  /** What a card appended to `s` adds to the selection of a side, after `pre`. */
  lemma OnSideStep(pre: seq<Card>, s: seq<Card>, c: Card, side: Side)
    ensures c.side == side ==> pre + OnSide(s + [c], side) == (pre + OnSide(s, side)) + [c]
    ensures c.side != side ==> pre + OnSide(s + [c], side) == pre + OnSide(s, side)
  {
    assert (s + [c])[..|s + [c]| - 1] == s;
  }

  /** What card `k` adds to the era selections of `s`. */
  lemma EraStep(s: seq<Card>, k: nat, era: string)
    requires k < |s|
    ensures s[k].war == era ==>
      InEra(s[..k + 1], era) == InEra(s[..k], era) + [s[k]] && NotInEra(s[..k + 1], era) == NotInEra(s[..k], era)
    ensures s[k].war != era ==>
      InEra(s[..k + 1], era) == InEra(s[..k], era) && NotInEra(s[..k + 1], era) == NotInEra(s[..k], era) + [s[k]]
  {
    assert s[..k + 1][..k] == s[..k];
  }

  /**
    With `kept` before the cards from index `k` on, taking card `k` out
    leaves `kept` before the rest, and keeping it extends `kept`.
  */
  lemma Splice(kept: seq<Card>, cards: seq<Card>, k: nat)
    requires k < |cards|
    ensures (kept + cards[k..])[..|kept|] + (kept + cards[k..])[|kept| + 1..] == kept + cards[k + 1..]
    ensures kept + cards[k..] == (kept + [cards[k]]) + cards[k + 1..]
  {
    var whole := kept + cards[k..];
    assert whole[..|kept|] == kept;
    assert whole[|kept| + 1..] == cards[k + 1..];
  }

  /** `OnSide` keeps exactly the copies of the cards of that side. */
  lemma {:induction false} OnSideCount(s: seq<Card>, side: Side, c: Card)
    ensures multiset(OnSide(s, side))[c] == if c.side == side then multiset(s)[c] else 0
  {
    if s != [] {
      var init, x := s[..|s| - 1], s[|s| - 1];
      assert s == init + [x];
      OnSideCount(init, side, c);
      OnSideSnoc(init, x);
    }
  }

  /** `InEra` and `NotInEra` keep exactly the copies of the cards of, and not of, that era. */
  lemma {:induction false} EraCount(s: seq<Card>, era: string, c: Card)
    ensures multiset(InEra(s, era))[c] == if c.war == era then multiset(s)[c] else 0
    ensures multiset(NotInEra(s, era))[c] == if c.war != era then multiset(s)[c] else 0
  {
    if s != [] {
      var init, x := s[..|s| - 1], s[|s| - 1];
      assert s == init + [x];
      EraCount(init, era, c);
      EraSnoc(init, x, era);
    }
  }

  /** The cards of the catalog, in catalog order. */
  function CatalogCards(cat: seq<CatalogEntry>): (r: seq<Card>)
    ensures |r| == |cat|
    ensures forall k :: 0 <= k < |cat| ==> r[k] == FromCatalog(cat[k])
  {
    if cat == [] then [] else CatalogCards(cat[..|cat| - 1]) + [FromCatalog(cat[|cat| - 1])]
  }

  /** The early-war catalog cards of one side: `loadCards` deals them to that side's deck. */
  function ToDeck(cat: seq<CatalogEntry>, side: Side): (dealt: seq<Card>)
    ensures |dealt| <= |cat|
    ensures forall c :: c in dealt ==> c.side == side && !c.isUnknown
  {
    if cat == [] then []
    else
      var e := cat[|cat| - 1];
      ToDeck(cat[..|cat| - 1], side)
        + if e.war == "early" && SideOf(e.eventType) == side then [FromCatalog(e)] else []
  }

  /** Only real early-war cards of the side are dealt to a side's deck. */
  lemma {:induction false} ToDeckDealt(cat: seq<CatalogEntry>, side: Side)
    ensures forall c :: c in ToDeck(cat, side) ==> c.side == side && c.war == "early" && !c.isUnknown
  {
    if cat != [] {
      ToDeckDealt(cat[..|cat| - 1], side);
    }
  }

  /** The other catalog cards: `loadCards` puts them in the box. */
  function ToBox(cat: seq<CatalogEntry>): (boxed: seq<Card>)
    ensures |boxed| <= |cat|
    ensures forall c :: c in boxed ==> !c.isUnknown
  {
    if cat == [] then []
    else
      var e := cat[|cat| - 1];
      ToBox(cat[..|cat| - 1]) + if e.war != "early" then [FromCatalog(e)] else []
  }

  /** Placing catalog entry `k` adds to a deck subsection holding `pre` what placing that entry alone would. */
  lemma DealStep(cat: seq<CatalogEntry>, k: nat, side: Side, pre: seq<Card>)
    requires k < |cat|
    ensures pre + ToDeck(cat[..k + 1], side) == (pre + ToDeck(cat[..k], side)) + ToDeck([cat[k]], side)
  {
    assert cat[..k + 1][..k] == cat[..k];
    assert [cat[k]][..0] == [];
  }

  /** Placing catalog entry `k` adds to a box holding `pre` what placing that entry alone would. */
  lemma BoxStep(cat: seq<CatalogEntry>, k: nat, pre: seq<Card>)
    requires k < |cat|
    ensures pre + ToBox(cat[..k + 1]) == (pre + ToBox(cat[..k])) + ToBox([cat[k]])
  {
    assert cat[..k + 1][..k] == cat[..k];
    assert [cat[k]][..0] == [];
  }

  /** Every catalog card is dealt to exactly one of the three decks or the box. */
  lemma {:induction false} CatalogPartition(cat: seq<CatalogEntry>)
    ensures multiset(CatalogCards(cat))
      == multiset(ToDeck(cat, US)) + multiset(ToDeck(cat, Neutral)) + multiset(ToDeck(cat, USSR))
         + multiset(ToBox(cat))
  {
    if cat != [] {
      CatalogPartition(cat[..|cat| - 1]);
    }
  }

  /** Every card has exactly one side. */
  lemma SidePartition(s: seq<Card>)
    ensures multiset(s) == multiset(OnSide(s, US)) + multiset(OnSide(s, Neutral)) + multiset(OnSide(s, USSR))
  {
    var whole := multiset(OnSide(s, US)) + multiset(OnSide(s, Neutral)) + multiset(OnSide(s, USSR));
    forall c ensures multiset(s)[c] == whole[c] {
      OnSideCount(s, US, c);
      OnSideCount(s, Neutral, c);
      OnSideCount(s, USSR, c);
    }
  }

  /** Every card is of the era or not. */
  lemma EraPartition(s: seq<Card>, era: string)
    ensures multiset(s) == multiset(InEra(s, era)) + multiset(NotInEra(s, era))
  {
    var whole := multiset(InEra(s, era)) + multiset(NotInEra(s, era));
    forall c ensures multiset(s)[c] == whole[c] {
      EraCount(s, era, c);
    }
  }

  /** Once the cards of an era are taken out, none are left and nothing more leaves. */
  lemma {:induction false} NotInEraSettled(s: seq<Card>, era: string)
    ensures InEra(NotInEra(s, era), era) == []
    ensures NotInEra(NotInEra(s, era), era) == NotInEra(s, era)
  {
    if s != [] {
      var init, x := s[..|s| - 1], s[|s| - 1];
      NotInEraSettled(init, era);
      var kept := NotInEra(init, era);
      if x.war != era {
        assert NotInEra(s, era) == kept + [x];
        assert (kept + [x])[..|kept + [x]| - 1] == kept;
        assert InEra(kept + [x], era) == InEra(kept, era);
      } else {
        assert NotInEra(s, era) == kept;
      }
    }
  }

  /** The three sides share out the cards of `s`. */
  lemma {:induction false} SideLengths(s: seq<Card>)
    ensures |OnSide(s, US)| + |OnSide(s, Neutral)| + |OnSide(s, USSR)| == |s|
  {
    if s != [] {
      SideLengths(s[..|s| - 1]);
    }
  }

  function RemoveAt(s: seq<Card>, i: nat): (r: seq<Card>)
    requires i < |s|
    ensures |r| == |s| - 1
    ensures multiset(r) + multiset{s[i]} == multiset(s)
  {
    assert s == s[..i] + [s[i]] + s[i + 1..];
    s[..i] + s[i + 1..]
  }

  // ---------------------------------------------------------------------
  // The refresh of placeholder ops (`updateLocationAverages`).

  /** The cards of one area with every placeholder showing `avg`. */
  function WithUnknownOps(s: seq<Card>, avg: real): (r: seq<Card>)
    ensures |r| == |s|
    ensures forall k :: 0 <= k < |s| ==> r[k] == if s[k].isUnknown then s[k].(ops := avg) else s[k]
  {
    seq(|s|, k requires 0 <= k < |s| => if s[k].isUnknown then s[k].(ops := avg) else s[k])
  }

  /**
    `updateLocationAverages`: every placeholder, in any area, takes the deck
    average computed from the areas as they are before the refresh. The
    areas are not re-sorted.
  */
  function Refresh(lay: Layout): (r: Layout)
    ensures forall l :: r.Get(l) == WithUnknownOps(lay.Get(l), DeckAverage(lay))
  {
    var avg := DeckAverage(lay);
    Layout(WithUnknownOps(lay.yourHand, avg), WithUnknownOps(lay.opponentHand, avg),
      WithUnknownOps(lay.deckUs, avg), WithUnknownOps(lay.deckNeutral, avg), WithUnknownOps(lay.deckUssr, avg),
      WithUnknownOps(lay.discard, avg), WithUnknownOps(lay.removed, avg), WithUnknownOps(lay.box, avg))
  }

  predicate NoUnknown(s: seq<Card>) {
    forall k :: 0 <= k < |s| ==> !s[k].isUnknown
  }

  predicate NoUnknownAnywhere(lay: Layout) {
    forall l :: NoUnknown(lay.Get(l))
  }

  /** The refresh keeps every real card where it is and changes only placeholders' ops. */
  lemma RefreshKeepsCards(lay: Layout, l: Loc, k: nat)
    requires k < |lay.Get(l)|
    ensures |Refresh(lay).Get(l)| == |lay.Get(l)|
    ensures !lay.Get(l)[k].isUnknown ==> Refresh(lay).Get(l)[k] == lay.Get(l)[k]
    ensures lay.Get(l)[k].isUnknown ==>
      Refresh(lay).Get(l)[k] == lay.Get(l)[k].(ops := DeckAverage(lay))
  {
  }

  /** Without placeholders the refresh changes nothing. */
  lemma RefreshWithoutUnknown(lay: Layout)
    requires NoUnknownAnywhere(lay)
    ensures Refresh(lay) == lay
  {
    forall l ensures Refresh(lay).Get(l) == lay.Get(l) {
      assert NoUnknown(lay.Get(l));
    }
    LayoutExtensionality(Refresh(lay), lay);
  }

  /**
    While no placeholder sits in the deck, the deck average does not move
    under a refresh, so refreshing twice is refreshing once.
  */
  lemma RefreshTwice(lay: Layout)
    requires NoUnknown(lay.deckUs) && NoUnknown(lay.deckNeutral) && NoUnknown(lay.deckUssr)
    ensures Refresh(Refresh(lay)) == Refresh(lay)
  {
    var r := Refresh(lay);
    assert r.deckUs == lay.deckUs && r.deckNeutral == lay.deckNeutral && r.deckUssr == lay.deckUssr;
    assert DeckAverage(r) == DeckAverage(lay);
    forall l ensures Refresh(r).Get(l) == r.Get(l) {
    }
    LayoutExtensionality(Refresh(r), r);
  }

  // ---------------------------------------------------------------------
  // The operations.

  /**
    `moveCard` of the card at index `i` of area `from`: the card leaves its
    area, joins the end of the target area (the deck subsection of its side
    when the target is "deck") and the target is sorted.
  */
  function MoveSpec(lay: Layout, from: Loc, i: nat, t: Target): (r: Layout)
    requires i < |lay.Get(from)|
    ensures var to := Resolve(t, lay.Get(from)[i]);
      && (from != to ==> multiset(r.Get(to)) == multiset(lay.Get(to)) + multiset{lay.Get(from)[i]})
      && (from == to ==> multiset(r.Get(to)) == multiset(lay.Get(from)))
      && forall l :: l != from && l != to ==> r.Get(l) == lay.Get(l)
  {
    var c := lay.Get(from)[i];
    var left := lay.Put(from, RemoveAt(lay.Get(from), i));
    var to := Resolve(t, c);
    left.Put(to, SortCards(left.Get(to) + [c]))
  }

  /**
    After a move the card lies in its resolved target, which is sorted, and
    only the source and the target change.
  */
  lemma MoveCardEffect(lay: Layout, from: Loc, i: nat, t: Target)
    requires i < |lay.Get(from)|
    ensures lay.Get(from)[i] in MoveSpec(lay, from, i, t).Get(Resolve(t, lay.Get(from)[i]))
    ensures from != Resolve(t, lay.Get(from)[i]) ==>
      multiset(MoveSpec(lay, from, i, t).Get(Resolve(t, lay.Get(from)[i])))
        == multiset(lay.Get(Resolve(t, lay.Get(from)[i]))) + multiset{lay.Get(from)[i]}
    ensures Sorted(MoveSpec(lay, from, i, t).Get(Resolve(t, lay.Get(from)[i])))
    ensures forall l :: l != from && l != Resolve(t, lay.Get(from)[i]) ==>
      MoveSpec(lay, from, i, t).Get(l) == lay.Get(l)
    ensures from != Resolve(t, lay.Get(from)[i]) ==>
      MoveSpec(lay, from, i, t).Get(from) == RemoveAt(lay.Get(from), i)
  {
    var c := lay.Get(from)[i];
    var left := lay.Put(from, RemoveAt(lay.Get(from), i));
    var to := Resolve(t, c);
    var moved := SortCards(left.Get(to) + [c]);
    SortCardsSorted(left.Get(to) + [c]);
    assert c in multiset(moved);
  }

  /** A move keeps every card on the table. */
  lemma MoveCardConserves(lay: Layout, from: Loc, i: nat, t: Target)
    requires i < |lay.Get(from)|
    ensures MoveSpec(lay, from, i, t).AllCards() == lay.AllCards()
  {
    var c := lay.Get(from)[i];
    var rest := RemoveAt(lay.Get(from), i);
    var left := lay.Put(from, rest);
    var to := Resolve(t, c);
    var moved := SortCards(left.Get(to) + [c]);
    var r := left.Put(to, moved);
    assert r == MoveSpec(lay, from, i, t);
    PutAllCards(lay, from, rest);
    PutAllCards(left, to, moved);
    assert multiset(moved) == multiset(left.Get(to)) + multiset{c} by {
      assert multiset(left.Get(to) + [c]) == multiset(left.Get(to)) + multiset{c};
    }
    MultisetCancel(r.AllCards(), left.AllCards(), lay.AllCards(), multiset(left.Get(to)), multiset(moved),
      multiset(lay.Get(from)), multiset(rest), c);
  }

  /** Taking `c` out of one area and putting it into another leaves the total as it was. */
  lemma MultisetCancel(a: multiset<Card>, b: multiset<Card>, total: multiset<Card>, target: multiset<Card>,
                       target': multiset<Card>, source: multiset<Card>, source': multiset<Card>, c: Card)
    requires a + target == b + target'
    requires target' == target + multiset{c}
    requires b + source == total + source'
    requires source' + multiset{c} == source
    ensures a == total
  {
    forall x ensures a[x] == total[x] {
      assert (a + target)[x] == (b + target')[x];
      assert (b + source)[x] == (total + source')[x];
    }
  }

  /** `addUnknownCard`: a placeholder showing the deck average joins the opponent's hand, which is sorted. */
  function AddUnknownSpec(lay: Layout): (r: Layout)
    ensures multiset(r.opponentHand) == multiset(lay.opponentHand) + multiset{UnknownCard(DeckAverage(lay))}
    ensures forall l :: l != OpponentHand ==> r.Get(l) == lay.Get(l)
  {
    lay.Put(OpponentHand, SortCards(lay.opponentHand + [UnknownCard(DeckAverage(lay))]))
  }

  lemma AddUnknownEffect(lay: Layout)
    ensures var r := AddUnknownSpec(lay);
      && r.AllCards() == lay.AllCards() + multiset{UnknownCard(DeckAverage(lay))}
      && Sorted(r.opponentHand)
      && (forall l :: l != OpponentHand ==> r.Get(l) == lay.Get(l))
  {
    var hand := SortCards(lay.opponentHand + [UnknownCard(DeckAverage(lay))]);
    SortCardsSorted(lay.opponentHand + [UnknownCard(DeckAverage(lay))]);
    PutAllCards(lay, OpponentHand, hand);
  }

  /** Deleting a placeholder with its minus icon: the card is gone. */
  function DeleteSpec(lay: Layout, from: Loc, i: nat): (r: Layout)
    requires i < |lay.Get(from)|
    ensures multiset(r.Get(from)) + multiset{lay.Get(from)[i]} == multiset(lay.Get(from))
    ensures forall l :: l != from ==> r.Get(l) == lay.Get(l)
  {
    lay.Put(from, RemoveAt(lay.Get(from), i))
  }

  lemma DeleteEffect(lay: Layout, from: Loc, i: nat)
    requires i < |lay.Get(from)|
    ensures var r := DeleteSpec(lay, from, i);
      && r.AllCards() + multiset{lay.Get(from)[i]} == lay.AllCards()
      && (forall l :: l != from ==> r.Get(l) == lay.Get(l))
  {
    PutAllCards(lay, from, RemoveAt(lay.Get(from), i));
  }

  /**
    `addDiscards`: every deck card goes to the opponent's hand, which is
    sorted; then every discarded card goes to the deck subsection of its
    side, and each subsection is sorted.
  */
  function AddDiscardsSpec(lay: Layout): (r: Layout)
    ensures r.discard == [] && r.yourHand == lay.yourHand && r.removed == lay.removed && r.box == lay.box
    ensures multiset(r.opponentHand) == multiset(lay.opponentHand) + multiset(lay.DeckCards())
    ensures |r.deckUs| + |r.deckNeutral| + |r.deckUssr| == |lay.discard|
  {
    SideLengths(lay.discard);
    Layout(lay.yourHand, SortCards(lay.opponentHand + lay.DeckCards()),
      SortCards(OnSide(lay.discard, US)), SortCards(OnSide(lay.discard, Neutral)), SortCards(OnSide(lay.discard, USSR)),
      [], lay.removed, lay.box)
  }

  /** A layout is the result of `addDiscards` when its areas are. */
  lemma AddDiscardsFields(lay: Layout, r: Layout)
    requires r.yourHand == lay.yourHand && r.removed == lay.removed && r.box == lay.box && r.discard == []
    requires r.opponentHand == SortCards(lay.opponentHand + lay.DeckCards())
    requires r.deckUs == SortCards(OnSide(lay.discard, US))
    requires r.deckNeutral == SortCards(OnSide(lay.discard, Neutral))
    requires r.deckUssr == SortCards(OnSide(lay.discard, USSR))
    ensures r == AddDiscardsSpec(lay)
  {
  }

  lemma AddDiscardsEffect(lay: Layout)
    ensures AddDiscardsSpec(lay).discard == []
    ensures multiset(AddDiscardsSpec(lay).opponentHand) == multiset(lay.opponentHand) + multiset(lay.DeckCards())
    ensures Sorted(AddDiscardsSpec(lay).opponentHand)
  {
    SortCardsSorted(lay.opponentHand + lay.DeckCards());
  }

  /** After `addDiscards` the deck subsection of a side holds that side's former discards, sorted. */
  lemma AddDiscardsDeck(lay: Layout, side: Side)
    ensures multiset(AddDiscardsSpec(lay).Get(DeckFor(side))) == multiset(OnSide(lay.discard, side))
    ensures Sorted(AddDiscardsSpec(lay).Get(DeckFor(side)))
  {
    SortCardsSorted(OnSide(lay.discard, side));
  }

  /** `addDiscards` keeps every card on the table. */
  lemma AddDiscardsConserves(lay: Layout)
    ensures AddDiscardsSpec(lay).AllCards() == lay.AllCards()
  {
    var r := AddDiscardsSpec(lay);
    assert multiset(r.opponentHand) == multiset(lay.opponentHand + lay.DeckCards());
    assert multiset(r.deckUs) + multiset(r.deckNeutral) + multiset(r.deckUssr) == multiset(lay.discard) by {
      SidePartition(lay.discard);
    }
    Regroup(lay, r);
  }

  /** The multiset arithmetic behind `AddDiscardsConserves`: the deck joins the hand, the discards make the deck. */
  lemma Regroup(lay: Layout, r: Layout)
    requires r.yourHand == lay.yourHand && r.removed == lay.removed && r.box == lay.box && r.discard == []
    requires multiset(r.opponentHand) == multiset(lay.opponentHand + lay.DeckCards())
    requires multiset(r.deckUs) + multiset(r.deckNeutral) + multiset(r.deckUssr) == multiset(lay.discard)
    ensures r.AllCards() == lay.AllCards()
  {
    forall x ensures r.AllCards()[x] == lay.AllCards()[x] {
      assert multiset(r.opponentHand)[x] == multiset(lay.opponentHand + lay.DeckCards())[x];
      assert (multiset(r.deckUs) + multiset(r.deckNeutral) + multiset(r.deckUssr))[x] == multiset(lay.discard)[x];
    }
  }

  /**
    `addMidWar` (era "mid") and `addLateWar` (era "late"): the box cards of
    that era go to the deck subsection of their side and each subsection is
    sorted; the other box cards stay, in their order.
  */
  function ReleaseSpec(lay: Layout, era: string): (r: Layout)
    ensures r.yourHand == lay.yourHand && r.opponentHand == lay.opponentHand
    ensures r.discard == lay.discard && r.removed == lay.removed
  {
    var leaving := InEra(lay.box, era);
    Layout(lay.yourHand, lay.opponentHand,
      SortCards(lay.deckUs + OnSide(leaving, US)),
      SortCards(lay.deckNeutral + OnSide(leaving, Neutral)),
      SortCards(lay.deckUssr + OnSide(leaving, USSR)),
      lay.discard, lay.removed, NotInEra(lay.box, era))
  }

  /** A layout is the result of a release when its areas are. */
  lemma ReleaseFields(lay: Layout, r: Layout, era: string)
    requires r.yourHand == lay.yourHand && r.opponentHand == lay.opponentHand
    requires r.discard == lay.discard && r.removed == lay.removed && r.box == NotInEra(lay.box, era)
    requires r.deckUs == SortCards(lay.deckUs + OnSide(InEra(lay.box, era), US))
    requires r.deckNeutral == SortCards(lay.deckNeutral + OnSide(InEra(lay.box, era), Neutral))
    requires r.deckUssr == SortCards(lay.deckUssr + OnSide(InEra(lay.box, era), USSR))
    ensures r == ReleaseSpec(lay, era)
  {
  }

  lemma ReleaseBox(lay: Layout, era: string)
    ensures forall c :: c in ReleaseSpec(lay, era).box ==> c.war != era
    ensures forall c: Card :: c.war != era ==> multiset(ReleaseSpec(lay, era).box)[c] == multiset(lay.box)[c]
  {
    var r := ReleaseSpec(lay, era);
    forall c | c in r.box ensures c.war != era {
      EraCount(lay.box, era, c);
    }
    forall c: Card | c.war != era ensures multiset(r.box)[c] == multiset(lay.box)[c] {
      EraCount(lay.box, era, c);
    }
  }

  /** A release adds to the deck subsection of a side exactly that side's released cards, and sorts it. */
  lemma ReleaseDeck(lay: Layout, era: string, side: Side)
    ensures multiset(ReleaseSpec(lay, era).Get(DeckFor(side)))
      == multiset(lay.Get(DeckFor(side))) + multiset(OnSide(InEra(lay.box, era), side))
    ensures Sorted(ReleaseSpec(lay, era).Get(DeckFor(side)))
  {
    SortCardsSorted(lay.Get(DeckFor(side)) + OnSide(InEra(lay.box, era), side));
  }

  /** A release keeps every card on the table. */
  lemma ReleaseConserves(lay: Layout, era: string)
    ensures ReleaseSpec(lay, era).AllCards() == lay.AllCards()
  {
    var r := ReleaseSpec(lay, era);
    var leaving := InEra(lay.box, era);
    var us, neutral, ussr := OnSide(leaving, US), OnSide(leaving, Neutral), OnSide(leaving, USSR);
    assert multiset(r.deckUs) == multiset(lay.deckUs) + multiset(us);
    assert multiset(r.deckNeutral) == multiset(lay.deckNeutral) + multiset(neutral);
    assert multiset(r.deckUssr) == multiset(lay.deckUssr) + multiset(ussr);
    assert multiset(leaving) == multiset(us) + multiset(neutral) + multiset(ussr) by {
      SidePartition(leaving);
    }
    assert multiset(lay.box) == multiset(leaving) + multiset(r.box) by {
      EraPartition(lay.box, era);
    }
    Regroup4(lay.deckUs, lay.deckNeutral, lay.deckUssr, lay.box, us, neutral, ussr, leaving,
      r.deckUs, r.deckNeutral, r.deckUssr, r.box);
    SameOutsideDecks(lay, r);
  }

  /** Two layouts that differ only in the decks and the box hold the same cards when those four do. */
  lemma SameOutsideDecks(lay: Layout, r: Layout)
    requires r.yourHand == lay.yourHand && r.opponentHand == lay.opponentHand
    requires r.discard == lay.discard && r.removed == lay.removed
    requires multiset(r.deckUs) + multiset(r.deckNeutral) + multiset(r.deckUssr) + multiset(r.box)
      == multiset(lay.deckUs) + multiset(lay.deckNeutral) + multiset(lay.deckUssr) + multiset(lay.box)
    ensures r.AllCards() == lay.AllCards()
  {
    forall x ensures r.AllCards()[x] == lay.AllCards()[x] {
      assert (multiset(r.deckUs) + multiset(r.deckNeutral) + multiset(r.deckUssr) + multiset(r.box))[x]
        == (multiset(lay.deckUs) + multiset(lay.deckNeutral) + multiset(lay.deckUssr) + multiset(lay.box))[x];
    }
  }

  /** The multiset arithmetic behind `ReleaseConserves` and `PlaceCatalogConserves`. */
  lemma Regroup4(us: seq<Card>, neutral: seq<Card>, ussr: seq<Card>, box: seq<Card>,
                 addUs: seq<Card>, addNeutral: seq<Card>, addUssr: seq<Card>, moved: seq<Card>,
                 us': seq<Card>, neutral': seq<Card>, ussr': seq<Card>, box': seq<Card>)
    requires multiset(us') == multiset(us) + multiset(addUs)
    requires multiset(neutral') == multiset(neutral) + multiset(addNeutral)
    requires multiset(ussr') == multiset(ussr) + multiset(addUssr)
    requires multiset(moved) == multiset(addUs) + multiset(addNeutral) + multiset(addUssr)
    requires multiset(box) == multiset(moved) + multiset(box')
    ensures multiset(us') + multiset(neutral') + multiset(ussr') + multiset(box')
      == multiset(us) + multiset(neutral) + multiset(ussr) + multiset(box)
  {
  }

  /** A second release of the same era moves no card: no card of that era is left in the box. */
  lemma ReleaseTwice(lay: Layout, era: string)
    ensures ReleaseSpec(ReleaseSpec(lay, era), era) == ReleaseSpec(lay, era)
  {
    var r := ReleaseSpec(lay, era);
    assert InEra(r.box, era) == [] && NotInEra(r.box, era) == r.box by {
      NotInEraSettled(lay.box, era);
    }
    NothingToAdd(lay.deckUs + OnSide(InEra(lay.box, era), US), US);
    NothingToAdd(lay.deckNeutral + OnSide(InEra(lay.box, era), Neutral), Neutral);
    NothingToAdd(lay.deckUssr + OnSide(InEra(lay.box, era), USSR), USSR);
  }

  /**
    The refresh that follows a release is not idempotent: with a placeholder
    in the deck, each refresh averages over the placeholder's own ops, so a
    second `addMidWar` moves no card but still changes the placeholder.
  */
  lemma ReleaseAgainRefreshes()
    ensures var lay := EmptyLayout.(deckNeutral := [Card("A", 3.0, Neutral, "early", true, false), UnknownCard(0.0)]);
      var once := Refresh(ReleaseSpec(lay, "mid"));
      once.deckNeutral[0].ops == 1.5
      && Refresh(ReleaseSpec(once, "mid")).deckNeutral[0].ops == 2.25
      && Refresh(ReleaseSpec(once, "mid")) != once
  {
    var a, u := Card("A", 3.0, Neutral, "early", true, false), UnknownCard(0.0);
    RefreshAfterRelease(a, u, [a, u], 1.5);
    RefreshAfterRelease(a, u.(ops := 1.5), [u.(ops := 1.5), a], 2.25);
  }

  /**
    A deck of one real card and one placeholder, with nothing else on the
    table: the release sorts the placeholder first, and the refresh puts it
    at the average of the two cards.
  */
  lemma RefreshAfterRelease(a: Card, u: Card, deck: seq<Card>, avg: real)
    requires u.isUnknown && !a.isUnknown && u.ops < a.ops && multiset(deck) == multiset{u, a} && |deck| == 2
    requires avg * 2.0 == u.ops + a.ops
    ensures Refresh(ReleaseSpec(EmptyLayout.(deckNeutral := deck), "mid")) == EmptyLayout.(deckNeutral := [u.(ops := avg), a])
  {
    assert SortCards(deck) == [u, a] by {
      SortCardsSorted(deck);
      var s := SortCards(deck);
      assert u in multiset(s) && a in multiset(s);
      assert s == [u, a] || s == [a, u];
      assert !CardLe(a, u);
    }
    ReleaseIntoNeutralDeck(deck);
    RefreshNeutralPair(u, a, avg);
  }

  /** With an empty box, a release only sorts the deck subsections. */
  lemma ReleaseIntoNeutralDeck(deck: seq<Card>)
    ensures ReleaseSpec(EmptyLayout.(deckNeutral := deck), "mid") == EmptyLayout.(deckNeutral := SortCards(deck))
  {
    var lay := EmptyLayout.(deckNeutral := deck);
    assert InEra(lay.box, "mid") == [] && NotInEra(lay.box, "mid") == [];
    assert OnSide([], Neutral) == [] && deck + [] == deck && SortCards([]) == [];
  }

  /** A placeholder beside one real card in the deck is refreshed to the average of the two. */
  lemma RefreshNeutralPair(u: Card, a: Card, avg: real)
    requires u.isUnknown && !a.isUnknown && avg * 2.0 == u.ops + a.ops
    ensures Refresh(EmptyLayout.(deckNeutral := [u, a])) == EmptyLayout.(deckNeutral := [u.(ops := avg), a])
  {
    var lay := EmptyLayout.(deckNeutral := [u, a]);
    assert lay.DeckCards() == [u, a];
    assert SumOps([u, a]) == u.ops + a.ops by {
      assert [u, a][..1] == [u] && [u][..0] == [];
      assert SumOps([u]) == u.ops;
    }
    assert DeckAverage(lay) == avg;
    var after := Refresh(lay);
    assert after.deckNeutral == [u.(ops := avg), a];
    LayoutExtensionality(after, EmptyLayout.(deckNeutral := [u.(ops := avg), a]));
  }

  /** A sorted subsection that is sent no card comes out of the sort as it was. */
  lemma NothingToAdd(s: seq<Card>, side: Side)
    ensures SortCards(SortCards(s) + OnSide([], side)) == SortCards(s)
  {
    assert SortCards(s) + OnSide([], side) == SortCards(s);
    SortCardsIdempotent(s);
  }

  /**
    `loadCards` placement: each early-war catalog card joins the deck
    subsection of its event type, every other card joins the box, and the
    three subsections are sorted.
  */
  function PlaceCatalogSpec(lay: Layout, cat: seq<CatalogEntry>): (r: Layout)
    ensures r.yourHand == lay.yourHand && r.opponentHand == lay.opponentHand
    ensures r.discard == lay.discard && r.removed == lay.removed
  {
    Layout(lay.yourHand, lay.opponentHand,
      SortCards(lay.deckUs + ToDeck(cat, US)),
      SortCards(lay.deckNeutral + ToDeck(cat, Neutral)),
      SortCards(lay.deckUssr + ToDeck(cat, USSR)),
      lay.discard, lay.removed, lay.box + ToBox(cat))
  }

  /** A layout is the result of placing the catalog when its areas are. */
  lemma PlaceCatalogFields(lay: Layout, r: Layout, cat: seq<CatalogEntry>)
    requires r.yourHand == lay.yourHand && r.opponentHand == lay.opponentHand
    requires r.discard == lay.discard && r.removed == lay.removed && r.box == lay.box + ToBox(cat)
    requires r.deckUs == SortCards(lay.deckUs + ToDeck(cat, US))
    requires r.deckNeutral == SortCards(lay.deckNeutral + ToDeck(cat, Neutral))
    requires r.deckUssr == SortCards(lay.deckUssr + ToDeck(cat, USSR))
    ensures r == PlaceCatalogSpec(lay, cat)
  {
  }

  /** Placement deals to the deck subsection of a side only early-war cards of that side, and sorts it. */
  lemma PlaceCatalogDeck(lay: Layout, cat: seq<CatalogEntry>, side: Side)
    ensures Sorted(PlaceCatalogSpec(lay, cat).Get(DeckFor(side)))
    ensures multiset(PlaceCatalogSpec(lay, cat).Get(DeckFor(side))) == multiset(lay.Get(DeckFor(side))) + multiset(ToDeck(cat, side))
    ensures forall c :: c in PlaceCatalogSpec(lay, cat).Get(DeckFor(side)) && c !in lay.Get(DeckFor(side)) ==>
      c.side == side && c.war == "early"
  {
    var dealt := lay.Get(DeckFor(side)) + ToDeck(cat, side);
    SortCardsSorted(dealt);
    ToDeckDealt(cat, side);
    forall c | c in SortCards(dealt) && c !in lay.Get(DeckFor(side)) ensures c.side == side && c.war == "early" {
      assert c in multiset(SortCards(dealt));
      assert c in ToDeck(cat, side);
    }
  }

  /** Placing the catalog adds exactly the catalog's cards to the table. */
  lemma PlaceCatalogConserves(lay: Layout, cat: seq<CatalogEntry>)
    ensures PlaceCatalogSpec(lay, cat).AllCards() == lay.AllCards() + multiset(CatalogCards(cat))
  {
    var r := PlaceCatalogSpec(lay, cat);
    var us, neutral, ussr, boxed := ToDeck(cat, US), ToDeck(cat, Neutral), ToDeck(cat, USSR), ToBox(cat);
    assert multiset(r.deckUs) == multiset(lay.deckUs) + multiset(us);
    assert multiset(r.deckNeutral) == multiset(lay.deckNeutral) + multiset(neutral);
    assert multiset(r.deckUssr) == multiset(lay.deckUssr) + multiset(ussr);
    assert multiset(r.box) == multiset(lay.box) + multiset(boxed);
    CatalogPartition(cat);
    AddedOutsideDecks(lay, r, us, neutral, ussr, boxed, CatalogCards(cat));
  }

  /** Cards added to the decks and the box, and nowhere else, add up to what was dealt. */
  lemma AddedOutsideDecks(lay: Layout, r: Layout, us: seq<Card>, neutral: seq<Card>, ussr: seq<Card>,
                          boxed: seq<Card>, dealt: seq<Card>)
    requires r.yourHand == lay.yourHand && r.opponentHand == lay.opponentHand
    requires r.discard == lay.discard && r.removed == lay.removed
    requires multiset(r.deckUs) == multiset(lay.deckUs) + multiset(us)
    requires multiset(r.deckNeutral) == multiset(lay.deckNeutral) + multiset(neutral)
    requires multiset(r.deckUssr) == multiset(lay.deckUssr) + multiset(ussr)
    requires multiset(r.box) == multiset(lay.box) + multiset(boxed)
    requires multiset(dealt) == multiset(us) + multiset(neutral) + multiset(ussr) + multiset(boxed)
    ensures r.AllCards() == lay.AllCards() + multiset(dealt)
  {
  }
}

=== FILE: ordering.dfy ===
/**
  The sort rule of `sortCardsInContainer`: ops ascending, then name.

  `Array.prototype.sort` is stable, so cards equal under the comparator keep
  their order; `SortCards` is an insertion sort with the same outcome. The
  locale-aware `localeCompare` is replaced by lexicographic order on code
  points, which is a total order as well.
*/
module Ordering {
  import opened Cards

  /** Lexicographic order on names. */
  predicate NameLe(a: string, b: string) {
    if a == [] then true
    else if b == [] then false
    else if a[0] != b[0] then a[0] < b[0]
    else NameLe(a[1..], b[1..])
  }

  lemma {:induction false} NameLeTotal(a: string, b: string)
    ensures NameLe(a, b) || NameLe(b, a)
  {
    if a != [] && b != [] && a[0] == b[0] {
      NameLeTotal(a[1..], b[1..]);
    }
  }

  lemma {:induction false} NameLeTransitive(a: string, b: string, c: string)
    requires NameLe(a, b) && NameLe(b, c)
    ensures NameLe(a, c)
  {
    if a != [] && b != [] && c != [] && a[0] == b[0] && b[0] == c[0] {
      NameLeTransitive(a[1..], b[1..], c[1..]);
    }
  }

  lemma {:induction false} NameLeReflexive(a: string)
    ensures NameLe(a, a)
  {
    if a != [] {
      NameLeReflexive(a[1..]);
    }
  }

  /**
    The comparator: `a` may come before `b`. Lower ops come first whatever
    the names; equal ops fall back to the names; every card may come
    before itself.
  */
  predicate CardLe(a: Card, b: Card): (le: bool)
    ensures le ==> a.ops <= b.ops
    ensures a.ops < b.ops ==> le
    ensures a.ops == b.ops ==> (le <==> NameLe(a.name, b.name))
    ensures a == b ==> le
  {
    NameLeReflexive(a.name);
    a.ops < b.ops || (a.ops == b.ops && NameLe(a.name, b.name))
  }

  lemma CardLeTotal(a: Card, b: Card)
    ensures CardLe(a, b) || CardLe(b, a)
  {
    NameLeTotal(a.name, b.name);
  }

  lemma CardLeTransitive(a: Card, b: Card, c: Card)
    requires CardLe(a, b) && CardLe(b, c)
    ensures CardLe(a, c)
  {
    if a.ops == b.ops && b.ops == c.ops {
      NameLeTransitive(a.name, b.name, c.name);
    }
  }

  predicate Sorted(s: seq<Card>) {
    forall i, j :: 0 <= i < j < |s| ==> CardLe(s[i], s[j])
  }

  /** Puts `x` in front of the first card it may precede. */
  function Insert(x: Card, s: seq<Card>): (r: seq<Card>)
    ensures multiset(r) == multiset(s) + multiset{x}
    ensures |r| == |s| + 1
  {
    if s == [] then [x]
    else if CardLe(x, s[0]) then [x] + s
    else
      assert s == [s[0]] + s[1..];
      [s[0]] + Insert(x, s[1..])
  }

  /** `sortCardsInContainer` on the cards of one area. */
  function SortCards(s: seq<Card>): (r: seq<Card>)
    ensures multiset(r) == multiset(s)
    ensures |r| == |s|
  {
    if s == [] then []
    else
      assert s == [s[0]] + s[1..];
      Insert(s[0], SortCards(s[1..]))
  }

  lemma {:induction false} InsertSorted(x: Card, s: seq<Card>)
    requires Sorted(s)
    ensures Sorted(Insert(x, s))
  {
    if s == [] {
    } else if CardLe(x, s[0]) {
      forall j | 1 <= j < |s| + 1 ensures CardLe(x, ([x] + s)[j]) {
        if j > 1 {
          CardLeTransitive(x, s[0], s[j - 1]);
        }
      }
    } else {
      var rest := Insert(x, s[1..]);
      InsertSorted(x, s[1..]);
      CardLeTotal(x, s[0]);
      forall j | 0 <= j < |rest| ensures CardLe(s[0], rest[j]) {
        assert rest[j] in multiset(rest);
        if rest[j] != x {
          assert rest[j] in multiset(s[1..]);
          var k :| 0 <= k < |s[1..]| && s[1..][k] == rest[j];
          assert s[k + 1] == rest[j];
        }
      }
    }
  }

  /** The cards of an area come out sorted. */
  lemma {:induction false} SortCardsSorted(s: seq<Card>)
    ensures Sorted(SortCards(s))
  {
    if s != [] {
      SortCardsSorted(s[1..]);
      InsertSorted(s[0], SortCards(s[1..]));
    }
  }

  /** Sorting an area that is already sorted leaves it as it is. */
  lemma {:induction false} SortCardsOfSorted(s: seq<Card>)
    requires Sorted(s)
    ensures SortCards(s) == s
  {
    if s != [] {
      SortCardsOfSorted(s[1..]);
      assert SortCards(s[1..]) == s[1..];
      if |s| > 1 {
        assert CardLe(s[0], s[1]);
      }
      assert [s[0]] + s[1..] == s;
    }
  }

  /** Sorting twice is sorting once. */
  lemma SortCardsIdempotent(s: seq<Card>)
    ensures SortCards(SortCards(s)) == SortCards(s)
  {
    SortCardsSorted(s);
    SortCardsOfSorted(SortCards(s));
  }
}

=== FILE: session.dfy ===
/**
  The running tracker: the eight card areas, the selected hand, the
  current game with its title and notes, and the browser store that holds
  the saved games. Each method is one handler or helper of the page and
  changes these fields as the page changes its elements and its store.
*/
module Session {
  import opened Cards
  import opened Ordering
  import opened Stats
  import opened Moves
  import opened Snapshot
  import opened GameStore

  /**
    What a click on a card does to the table (before the refresh that
    follows): the minus icon takes the card off the table, any other part
    moves it and keeps every card on the table.
  */
  function ClickSpec(lay: Layout, part: CardPart, from: Loc, i: nat, selectedHand: Loc): (r: Layout)
    requires i < |lay.Get(from)|
    ensures part == MinusIcon ==> r.AllCards() + multiset{lay.Get(from)[i]} == lay.AllCards()
    ensures part != MinusIcon ==> r.AllCards() == lay.AllCards()
  {
    match Dispatch(part, from, selectedHand)
    case MoveTo(t) => MoveCardConserves(lay, from, i, t); MoveSpec(lay, from, i, t)
    case DeleteCard => DeleteEffect(lay, from, i); DeleteSpec(lay, from, i)
  }

  /** A click is a move to the target of its dispatch, or a deletion. */
  lemma ClickSpecCases(lay: Layout, part: CardPart, from: Loc, i: nat, selectedHand: Loc)
    requires i < |lay.Get(from)|
    ensures Dispatch(part, from, selectedHand).MoveTo? ==>
      ClickSpec(lay, part, from, i, selectedHand) == MoveSpec(lay, from, i, Dispatch(part, from, selectedHand).target)
    ensures Dispatch(part, from, selectedHand).DeleteCard? ==>
      ClickSpec(lay, part, from, i, selectedHand) == DeleteSpec(lay, from, i)
  {
  }

  /**
    A click on a card's text moves it to the selected hand when it lies in
    the deck and to the deck subsection of its side otherwise; a click on
    an icon sends it to the discard or removed area; the table keeps the
    same cards, and the card lands in a sorted area.
  */
  lemma ClickMoves(lay: Layout, part: CardPart, from: Loc, i: nat, selectedHand: Loc)
    requires i < |lay.Get(from)| && part != MinusIcon
    ensures var c := lay.Get(from)[i];
      var to := match part
        case DiscardIcon => Discard
        case RemoveIcon => Removed
        case _ => if IsDeck(from) then selectedHand else DeckFor(c.side);
      && c in ClickSpec(lay, part, from, i, selectedHand).Get(to)
      && Sorted(ClickSpec(lay, part, from, i, selectedHand).Get(to))
      && ClickSpec(lay, part, from, i, selectedHand).AllCards() == lay.AllCards()
  {
    var t := Dispatch(part, from, selectedHand).target;
    MoveCardEffect(lay, from, i, t);
    MoveCardConserves(lay, from, i, t);
  }

  class Tracker {
    var yourHand: seq<Card>
    var opponentHand: seq<Card>
    var deckUs: seq<Card>
    var deckNeutral: seq<Card>
    var deckUssr: seq<Card>
    var discard: seq<Card>
    var removed: seq<Card>
    var box: seq<Card>

    /** The hand a card clicked in the deck goes to. */
    var selectedHand: Loc
    /** The current game id as the page holds it in memory. */
    var currentGameId: Option<string>
    /** The title and notes fields of the page. */
    var title: string
    var notes: string

    /** The store: the games index, the saved games by id and the stored current id. */
    var gamesIndex: seq<GameEntry>
    var savedGames: map<string, GameData>
    var storedCurrentId: Option<string>

    function Areas(): Layout
      reads this
    {
      Layout(yourHand, opponentHand, deckUs, deckNeutral, deckUssr, discard, removed, box)
    }

    predicate Valid()
      reads this
    {
      IsHand(selectedHand)
    }

    /** A page opened on the given store, before any game is loaded. */
    constructor (index: seq<GameEntry>, games: map<string, GameData>, storedId: Option<string>)
      ensures Valid() && Areas() == EmptyLayout && selectedHand == YourHand
      ensures currentGameId == None && title == "" && notes == ""
      ensures gamesIndex == index && savedGames == games && storedCurrentId == storedId
    {
      yourHand, opponentHand, deckUs, deckNeutral, deckUssr := [], [], [], [], [];
      discard, removed, box := [], [], [];
      selectedHand := YourHand;
      currentGameId := None;
      title, notes := "", "";
      gamesIndex, savedGames, storedCurrentId := index, games, storedId;
    }

    /** Replaces the cards of one area. */
    method SetArea(l: Loc, s: seq<Card>)
      modifies this`yourHand, this`opponentHand, this`deckUs, this`deckNeutral, this`deckUssr,
        this`discard, this`removed, this`box
      ensures Areas() == old(Areas()).Put(l, s)
    {
      match l
      case YourHand => yourHand := s;
      case OpponentHand => opponentHand := s;
      case DeckUs => deckUs := s;
      case DeckNeutral => deckNeutral := s;
      case DeckUssr => deckUssr := s;
      case Discard => discard := s;
      case Removed => removed := s;
      case Box => box := s;
    }

    /** `updateLocationAverages`: every placeholder takes the deck average of the table as it is. */
    method RefreshUnknownCards()
      modifies this`yourHand, this`opponentHand, this`deckUs, this`deckNeutral, this`deckUssr,
        this`discard, this`removed, this`box
      ensures Areas() == Refresh(old(Areas()))
    {
      var avg := DeckAverage(Areas());
      LocOrderDistinct();
      var i := 0;
      while i < |LocOrder|
        invariant 0 <= i <= |LocOrder|
        invariant forall j :: 0 <= j < i ==>
          Areas().Get(LocOrder[j]) == WithUnknownOps(old(Areas()).Get(LocOrder[j]), avg)
        invariant forall l :: l !in LocOrder[..i] ==> Areas().Get(l) == old(Areas()).Get(l)
      {
        var l := LocOrder[i];
        SetArea(l, WithUnknownOps(Areas().Get(l), avg));
        assert LocOrder[..i + 1] == LocOrder[..i] + [l];
        forall j | 0 <= j < i ensures LocOrder[j] != l {
          assert LocOrder[j] != LocOrder[i];
        }
        i := i + 1;
      }
      forall l ensures Areas().Get(l) == Refresh(old(Areas())).Get(l) {
        EveryLocListed(l);
        var j :| 0 <= j < |LocOrder| && LocOrder[j] == l;
      }
      LayoutExtensionality(Areas(), Refresh(old(Areas())));
    }

    /** `getCurrentGameId`: a falsy id in memory is replaced by the stored one. */
    method GetCurrentGameId() returns (id: Option<string>)
      modifies this`currentGameId
      ensures id == currentGameId == ResolveCurrentId(old(currentGameId), storedCurrentId)
    {
      if !Truthy(currentGameId) {
        currentGameId := storedCurrentId;
      }
      id := currentGameId;
    }

    /** `setCurrentGameId`, with the corrected store: an absent id removes the stored entry. */
    method SetCurrentGameId(id: Option<string>)
      modifies this`currentGameId, this`storedCurrentId
      ensures currentGameId == id && storedCurrentId == StoredId(id)
    {
      currentGameId := id;
      if id.Some? {
        storedCurrentId := id;
      } else {
        storedCurrentId := None;
      }
    }

    /** `saveCurrentGame`: writes the table, title and notes under the current id, if there is one. */
    method SaveCurrentGame()
      modifies this`currentGameId, this`savedGames
      ensures currentGameId == ResolveCurrentId(old(currentGameId), storedCurrentId)
      ensures savedGames == Saved(old(savedGames), currentGameId, title, notes, GetCardPositions(Areas()))
    {
      var id := GetCurrentGameId();
      if !Truthy(id) {
        return;
      }
      savedGames := savedGames[id.value := GameData(id.value, title, notes, Some(GetCardPositions(Areas())))];
    }

    /** The autosave that ends each change of the table: save when there is a current id. */
    method Autosave()
      modifies this`currentGameId, this`savedGames
      ensures currentGameId == ResolveCurrentId(old(currentGameId), storedCurrentId)
      ensures savedGames == Saved(old(savedGames), currentGameId, title, notes, GetCardPositions(Areas()))
    {
      var id := GetCurrentGameId();
      if Truthy(id) {
        SaveCurrentGame();
      }
    }

    /** `moveCard` of the card at index `i` of area `from` to `t`. */
    method MoveCard(from: Loc, i: nat, t: Target)
      requires i < |Areas().Get(from)|
      modifies this`yourHand, this`opponentHand, this`deckUs, this`deckNeutral, this`deckUssr,
        this`discard, this`removed, this`box, this`currentGameId, this`savedGames
      ensures Areas() == Refresh(MoveSpec(old(Areas()), from, i, t))
      ensures currentGameId == ResolveCurrentId(old(currentGameId), storedCurrentId)
      ensures savedGames == Saved(old(savedGames), currentGameId, title, notes, GetCardPositions(Areas()))
    {
      var c := Areas().Get(from)[i];
      SetArea(from, RemoveAt(Areas().Get(from), i));
      var to := Resolve(t, c);
      SetArea(to, SortCards(Areas().Get(to) + [c]));
      RefreshUnknownCards();
      Autosave();
    }

    /** The minus icon of a placeholder: the placeholder is deleted. */
    method DeleteUnknownCard(from: Loc, i: nat)
      requires i < |Areas().Get(from)| && Areas().Get(from)[i].isUnknown
      modifies this`yourHand, this`opponentHand, this`deckUs, this`deckNeutral, this`deckUssr,
        this`discard, this`removed, this`box, this`currentGameId, this`savedGames
      ensures Areas() == Refresh(DeleteSpec(old(Areas()), from, i))
      ensures currentGameId == ResolveCurrentId(old(currentGameId), storedCurrentId)
      ensures savedGames == Saved(old(savedGames), currentGameId, title, notes, GetCardPositions(Areas()))
    {
      SetArea(from, RemoveAt(Areas().Get(from), i));
      RefreshUnknownCards();
      Autosave();
    }

    /** `addUnknownCard`: a placeholder showing the deck average joins the opponent's hand. */
    method AddUnknownCard()
      modifies this`yourHand, this`opponentHand, this`deckUs, this`deckNeutral, this`deckUssr,
        this`discard, this`removed, this`box, this`currentGameId, this`savedGames
      ensures Areas() == Refresh(AddUnknownSpec(old(Areas())))
      ensures currentGameId == ResolveCurrentId(old(currentGameId), storedCurrentId)
      ensures savedGames == Saved(old(savedGames), currentGameId, title, notes, GetCardPositions(Areas()))
    {
      var placeholder := UnknownCard(DeckAverage(Areas()));
      opponentHand := SortCards(opponentHand + [placeholder]);
      RefreshUnknownCards();
      Autosave();
    }

    /** `selectHandLocation`, reached by a click on the header of a hand. */
    method SelectHandLocation(l: Loc)
      requires IsHand(l)
      modifies this`selectedHand
      ensures selectedHand == l && Valid()
    {
      selectedHand := l;
    }

    /**
      The click handler on a card. The icons exist only where the page draws
      them: the minus icon on placeholders, the discard and remove icons on
      real cards, and the remove icon only when the card can be removed.
    */
    method ClickCard(part: CardPart, from: Loc, i: nat)
      requires Valid() && i < |Areas().Get(from)|
      requires part == MinusIcon ==> Areas().Get(from)[i].isUnknown
      requires part == DiscardIcon || part == RemoveIcon ==> !Areas().Get(from)[i].isUnknown
      requires part == RemoveIcon ==> Areas().Get(from)[i].canBeRemoved
      modifies this`yourHand, this`opponentHand, this`deckUs, this`deckNeutral, this`deckUssr,
        this`discard, this`removed, this`box, this`currentGameId, this`savedGames
      ensures Areas() == Refresh(ClickSpec(old(Areas()), part, from, i, selectedHand))
      ensures currentGameId == ResolveCurrentId(old(currentGameId), storedCurrentId)
      ensures savedGames == Saved(old(savedGames), currentGameId, title, notes, GetCardPositions(Areas()))
    {
      ClickSpecCases(Areas(), part, from, i, selectedHand);
      match Dispatch(part, from, selectedHand)
      case MoveTo(t) => MoveCard(from, i, t);
      case DeleteCard => DeleteUnknownCard(from, i);
    }

    /** Takes the first card off the pool `deck-us`, `deck-neutral`, `deck-ussr` read in that order. */
    method TakeFirstDeckCard()
      requires deckUs + deckNeutral + deckUssr != []
      modifies this`deckUs, this`deckNeutral, this`deckUssr
      ensures [old(Areas()).DeckCards()[0]] + Areas().DeckCards() == old(Areas()).DeckCards()
    {
      if deckUs != [] {
        assert deckUs == [deckUs[0]] + deckUs[1..];
        deckUs := deckUs[1..];
      } else if deckNeutral != [] {
        assert deckNeutral == [deckNeutral[0]] + deckNeutral[1..];
        deckNeutral := deckNeutral[1..];
      } else {
        assert deckUssr == [deckUssr[0]] + deckUssr[1..];
        deckUssr := deckUssr[1..];
      }
    }

    /** Step one of `addDiscards`: each deck card in turn leaves the deck for the opponent's hand. */
    method DeckToOpponentHand()
      modifies this`opponentHand, this`deckUs, this`deckNeutral, this`deckUssr
      ensures opponentHand == old(opponentHand) + old(Areas()).DeckCards()
      ensures deckUs == [] && deckNeutral == [] && deckUssr == []
    {
      var pool := deckUs + deckNeutral + deckUssr;
      var k := 0;
      while k < |pool|
        invariant 0 <= k <= |pool|
        invariant deckUs + deckNeutral + deckUssr == pool[k..]
        invariant opponentHand == old(opponentHand) + pool[..k]
      {
        TakeFirstDeckCard();
        opponentHand := opponentHand + [pool[k]];
        assert pool[..k + 1] == pool[..k] + [pool[k]];
        k := k + 1;
      }
      assert pool[..k] == pool;
      assert |deckUs + deckNeutral + deckUssr| == 0;
    }

    /**
      Step two of `addDiscards`, on an empty deck: each discarded card in
      turn leaves the pile for the deck subsection of its side; the
      subsections are then sorted.
    */
    method DiscardsToDeck()
      requires deckUs == [] && deckNeutral == [] && deckUssr == []
      modifies this`deckUs, this`deckNeutral, this`deckUssr, this`discard
      ensures discard == []
      ensures deckUs == SortCards(OnSide(old(discard), US))
      ensures deckNeutral == SortCards(OnSide(old(discard), Neutral))
      ensures deckUssr == SortCards(OnSide(old(discard), USSR))
    {
      var cards := discard;
      var k := 0;
      while k < |cards|
        invariant 0 <= k <= |cards|
        invariant discard == cards[k..]
        invariant deckUs == OnSide(cards[..k], US)
        invariant deckNeutral == OnSide(cards[..k], Neutral)
        invariant deckUssr == OnSide(cards[..k], USSR)
      {
        var c := cards[k];
        discard := discard[1..];
        OnSideSnoc(cards[..k], c);
        assert cards[..k + 1] == cards[..k] + [c];
        match c.side {
          case US => deckUs := deckUs + [c];
          case Neutral => deckNeutral := deckNeutral + [c];
          case USSR => deckUssr := deckUssr + [c];
        }
        k := k + 1;
      }
      assert cards[..k] == cards;
      SortDeckSubsections();
    }

    /** `sortCardsInContainer` on the three deck subsections. */
    method SortDeckSubsections()
      modifies this`deckUs, this`deckNeutral, this`deckUssr
      ensures deckUs == SortCards(old(deckUs))
      ensures deckNeutral == SortCards(old(deckNeutral))
      ensures deckUssr == SortCards(old(deckUssr))
    {
      deckUs := SortCards(deckUs);
      deckNeutral := SortCards(deckNeutral);
      deckUssr := SortCards(deckUssr);
    }

    /**
      `addDiscards`: the deck goes to the opponent's hand, which is sorted;
      the discards go to the deck subsections of their sides, which are
      sorted; the placeholders are refreshed and the game saved.
    */
    method AddDiscards()
      modifies this`yourHand, this`opponentHand, this`deckUs, this`deckNeutral, this`deckUssr,
        this`discard, this`removed, this`box, this`currentGameId, this`savedGames
      ensures Areas() == Refresh(AddDiscardsSpec(old(Areas())))
      ensures currentGameId == ResolveCurrentId(old(currentGameId), storedCurrentId)
      ensures savedGames == Saved(old(savedGames), currentGameId, title, notes, GetCardPositions(Areas()))
    {
      Regather();
      RefreshUnknownCards();
      Autosave();
    }

    /** The moves of `addDiscards`, before the refresh and the save. */
    method Regather()
      modifies this`opponentHand, this`deckUs, this`deckNeutral, this`deckUssr, this`discard
      ensures Areas() == AddDiscardsSpec(old(Areas()))
    {
      ghost var before := Areas();
      DeckToOpponentHand();
      opponentHand := SortCards(opponentHand);
      DiscardsToDeck();
      ghost var after := Areas();
      assert after.deckUs == SortCards(OnSide(before.discard, US));
      assert after.deckNeutral == SortCards(OnSide(before.discard, Neutral));
      assert after.deckUssr == SortCards(OnSide(before.discard, USSR));
      AddDiscardsFields(before, after);
    }

    /**
      `appendChild` of a card to the deck subsection of `side`, the one
      `getDeckSubsection` gives for an event type of that side.
    */
    method AppendToDeck(side: Side, c: Card)
      modifies this`deckUs, this`deckNeutral, this`deckUssr
      ensures deckUs == if side == US then old(deckUs) + [c] else old(deckUs)
      ensures deckNeutral == if side == Neutral then old(deckNeutral) + [c] else old(deckNeutral)
      ensures deckUssr == if side == USSR then old(deckUssr) + [c] else old(deckUssr)
    {
      match side
      case US => deckUs := deckUs + [c];
      case Neutral => deckNeutral := deckNeutral + [c];
      case USSR => deckUssr := deckUssr + [c];
    }

    /**
      The moves of `addMidWar` and `addLateWar`: each box card of the era,
      in box order, leaves the box for the deck subsection of its side.
    */
    method BoxEraToDeck(era: string)
      modifies this`deckUs, this`deckNeutral, this`deckUssr, this`box
      ensures box == NotInEra(old(box), era)
      ensures deckUs == old(deckUs) + OnSide(InEra(old(box), era), US)
      ensures deckNeutral == old(deckNeutral) + OnSide(InEra(old(box), era), Neutral)
      ensures deckUssr == old(deckUssr) + OnSide(InEra(old(box), era), USSR)
    {
      var cards := box;
      ghost var kept: seq<Card> := [];
      ghost var leaving: seq<Card> := [];
      var j, k := 0, 0;
      while k < |cards|
        invariant 0 <= k <= |cards|
        invariant kept == NotInEra(cards[..k], era) && leaving == InEra(cards[..k], era)
        invariant j == |kept| && box == kept + cards[k..]
        invariant deckUs == old(deckUs) + OnSide(leaving, US)
        invariant deckNeutral == old(deckNeutral) + OnSide(leaving, Neutral)
        invariant deckUssr == old(deckUssr) + OnSide(leaving, USSR)
      {
        var c := cards[k];
        EraStep(cards, k, era);
        Splice(kept, cards, k);
        if c.war == era {
          OnSideStep(old(deckUs), leaving, c, US);
          OnSideStep(old(deckNeutral), leaving, c, Neutral);
          OnSideStep(old(deckUssr), leaving, c, USSR);
          box := box[..j] + box[j + 1..];
          AppendToDeck(c.side, c);
          leaving := leaving + [c];
        } else {
          kept := kept + [c];
          j := j + 1;
        }
        k := k + 1;
      }
      assert cards[..k] == cards;
    }

    /** The moves of a release, before the refresh and the save. */
    method Release(era: string)
      modifies this`deckUs, this`deckNeutral, this`deckUssr, this`box
      ensures Areas() == ReleaseSpec(old(Areas()), era)
    {
      ghost var before := Areas();
      BoxEraToDeck(era);
      SortDeckSubsections();
      ReleaseFields(before, Areas(), era);
    }

    /** `addMidWar` (era "mid") and `addLateWar` (era "late"), followed by the refresh and the autosave. */
    method ReleaseWar(era: string)
      modifies this`yourHand, this`opponentHand, this`deckUs, this`deckNeutral, this`deckUssr,
        this`discard, this`removed, this`box, this`currentGameId, this`savedGames
      ensures Areas() == Refresh(ReleaseSpec(old(Areas()), era))
      ensures currentGameId == ResolveCurrentId(old(currentGameId), storedCurrentId)
      ensures savedGames == Saved(old(savedGames), currentGameId, title, notes, GetCardPositions(Areas()))
    {
      Release(era);
      RefreshUnknownCards();
      Autosave();
    }

    /** `addMidWar`. */
    method AddMidWar()
      modifies this`yourHand, this`opponentHand, this`deckUs, this`deckNeutral, this`deckUssr,
        this`discard, this`removed, this`box, this`currentGameId, this`savedGames
      ensures Areas() == Refresh(ReleaseSpec(old(Areas()), "mid"))
      ensures currentGameId == ResolveCurrentId(old(currentGameId), storedCurrentId)
      ensures savedGames == Saved(old(savedGames), currentGameId, title, notes, GetCardPositions(Areas()))
    {
      ReleaseWar("mid");
    }

    /** `addLateWar`. */
    method AddLateWar()
      modifies this`yourHand, this`opponentHand, this`deckUs, this`deckNeutral, this`deckUssr,
        this`discard, this`removed, this`box, this`currentGameId, this`savedGames
      ensures Areas() == Refresh(ReleaseSpec(old(Areas()), "late"))
      ensures currentGameId == ResolveCurrentId(old(currentGameId), storedCurrentId)
      ensures savedGames == Saved(old(savedGames), currentGameId, title, notes, GetCardPositions(Areas()))
    {
      ReleaseWar("late");
    }

    /**
      The placement loop of `loadCards`: each catalog card in turn joins the
      deck subsection of its event type when it is early war, the box
      otherwise.
    */
    method DealCatalog(catalog: seq<CatalogEntry>)
      modifies this`deckUs, this`deckNeutral, this`deckUssr, this`box
      ensures box == old(box) + ToBox(catalog)
      ensures deckUs == old(deckUs) + ToDeck(catalog, US)
      ensures deckNeutral == old(deckNeutral) + ToDeck(catalog, Neutral)
      ensures deckUssr == old(deckUssr) + ToDeck(catalog, USSR)
    {
      var k := 0;
      while k < |catalog|
        invariant 0 <= k <= |catalog|
        invariant box == old(box) + ToBox(catalog[..k])
        invariant deckUs == old(deckUs) + ToDeck(catalog[..k], US)
        invariant deckNeutral == old(deckNeutral) + ToDeck(catalog[..k], Neutral)
        invariant deckUssr == old(deckUssr) + ToDeck(catalog[..k], USSR)
      {
        DealStep(catalog, k, US, old(deckUs));
        DealStep(catalog, k, Neutral, old(deckNeutral));
        DealStep(catalog, k, USSR, old(deckUssr));
        BoxStep(catalog, k, old(box));
        DealEntry(catalog[k]);
        k := k + 1;
      }
      assert catalog[..k] == catalog;
    }

    /** The placement of one catalog entry: its deck subsection when it is early war, the box otherwise. */
    method DealEntry(e: CatalogEntry)
      modifies this`deckUs, this`deckNeutral, this`deckUssr, this`box
      ensures box == old(box) + ToBox([e])
      ensures deckUs == old(deckUs) + ToDeck([e], US)
      ensures deckNeutral == old(deckNeutral) + ToDeck([e], Neutral)
      ensures deckUssr == old(deckUssr) + ToDeck([e], USSR)
    {
      var c := FromCatalog(e);
      if e.war == "early" {
        AppendToDeck(SideOf(e.eventType), c);
      } else {
        box := box + [c];
      }
    }

    /** The placement of `loadCards`, before the refresh. */
    method PlaceCatalog(catalog: seq<CatalogEntry>)
      modifies this`deckUs, this`deckNeutral, this`deckUssr, this`box
      ensures Areas() == PlaceCatalogSpec(old(Areas()), catalog)
    {
      ghost var before := Areas();
      DealCatalog(catalog);
      SortDeckSubsections();
      PlaceCatalogFields(before, Areas(), catalog);
    }

    /**
      `loadCards` once the catalog has been fetched: the catalog is placed
      onto whatever the table holds and the placeholders are refreshed.
      There is no autosave here.
    */
    method LoadCards(catalog: seq<CatalogEntry>)
      modifies this`yourHand, this`opponentHand, this`deckUs, this`deckNeutral, this`deckUssr,
        this`discard, this`removed, this`box
      ensures Areas() == Refresh(PlaceCatalogSpec(old(Areas()), catalog))
    {
      PlaceCatalog(catalog);
      RefreshUnknownCards();
    }

    /** `clearAllCards`: every area is emptied, one after the other. */
    method ClearAllCards()
      modifies this`yourHand, this`opponentHand, this`deckUs, this`deckNeutral, this`deckUssr,
        this`discard, this`removed, this`box
      ensures Areas() == EmptyLayout
    {
      var i := 0;
      while i < |LocOrder|
        invariant 0 <= i <= |LocOrder|
        invariant forall j :: 0 <= j < i ==> Areas().Get(LocOrder[j]) == []
      {
        SetArea(LocOrder[i], []);
        i := i + 1;
      }
      forall l ensures Areas().Get(l) == EmptyLayout.Get(l) {
        EveryLocListed(l);
      }
      LayoutExtensionality(Areas(), EmptyLayout);
    }

    /**
      The inner loop of `restoreCardPositions`: each record of area `l` in
      turn becomes a card appended to that area; a placeholder takes the
      deck average of the table as it is at that moment.
    */
    method RestoreArea(l: Loc, recs: seq<CardRecord>)
      modifies this`yourHand, this`opponentHand, this`deckUs, this`deckNeutral, this`deckUssr,
        this`discard, this`removed, this`box
      ensures Areas() == RestoreCards(old(Areas()), l, recs)
    {
      var k := 0;
      while k < |recs|
        invariant 0 <= k <= |recs|
        invariant Areas() == RestoreCards(old(Areas()), l, recs[..k])
      {
        var c := FromRecord(recs[k], DeckAverage(Areas()));
        RestoreCardsStep(old(Areas()), l, recs, k);
        SetArea(l, Areas().Get(l) + [c]);
        k := k + 1;
      }
      assert recs[..k] == recs;
    }

    /**
      `restoreCardPositions`: the table is cleared, each saved area is
      rebuilt from its records, and the placeholders are refreshed.
    */
    method RestoreCardPositions(p: Positions)
      modifies this`yourHand, this`opponentHand, this`deckUs, this`deckNeutral, this`deckUssr,
        this`discard, this`removed, this`box
      ensures Areas() == RestoreSpec(p)
    {
      ClearAllCards();
      var i := 0;
      while i < |LocOrder|
        invariant 0 <= i <= |LocOrder|
        invariant Areas() == RestoreFrom(EmptyLayout, p, LocOrder[..i])
      {
        var l := LocOrder[i];
        assert LocOrder[..i + 1][..i] == LocOrder[..i];
        if l in p {
          RestoreArea(l, p[l]);
        }
        i := i + 1;
      }
      assert LocOrder[..i] == LocOrder;
      RefreshUnknownCards();
    }

    /**
      `loadGame` once the catalog has been fetched. The game open so far is
      saved first when it is a different one; the game becomes current; its
      title and notes are shown; its card positions are restored when it has
      some. A game that has none, or is not stored at all, gets the catalog
      placed onto the table as it is, and is saved.
    */
    method LoadGame(id: string, catalog: seq<CatalogEntry>)
      modifies this`yourHand, this`opponentHand, this`deckUs, this`deckNeutral, this`deckUssr,
        this`discard, this`removed, this`box, this`currentGameId, this`storedCurrentId,
        this`title, this`notes, this`savedGames
      ensures currentGameId == Some(id) && storedCurrentId == Some(id)
      ensures var pre := SavedBeforeSwitch(old(savedGames), ResolveCurrentId(old(currentGameId), old(storedCurrentId)),
                                           id, old(title), old(notes), GetCardPositions(old(Areas())));
        if id in old(savedGames) && old(savedGames)[id].cardPositions.Some? then
          && Areas() == RestoreSpec(old(savedGames)[id].cardPositions.value)
          && title == old(savedGames)[id].title && notes == old(savedGames)[id].notes
          && savedGames == pre
        else
          && Areas() == Refresh(PlaceCatalogSpec(old(Areas()), catalog))
          && title == (if id in old(savedGames) then old(savedGames)[id].title else "")
          && notes == (if id in old(savedGames) then old(savedGames)[id].notes else "")
          && savedGames == Saved(pre, Some(id), title, notes, GetCardPositions(Areas()))
    {
      SwitchTo(id);
      ShowGame(id, catalog);
    }

    /** The start of `loadGame`: the save before switching, then the game becomes current. */
    method SwitchTo(id: string)
      modifies this`currentGameId, this`storedCurrentId, this`savedGames
      ensures currentGameId == Some(id) && storedCurrentId == Some(id)
      ensures savedGames == SavedBeforeSwitch(old(savedGames), ResolveCurrentId(old(currentGameId), old(storedCurrentId)),
                                              id, title, notes, GetCardPositions(Areas()))
    {
      var current := GetCurrentGameId();
      if Truthy(current) && current.value != id {
        SaveCurrentGame();
      }
      SetCurrentGameId(Some(id));
    }

    /** The rest of `loadGame`, once game `id` is current: what is shown and what is saved. */
    method ShowGame(id: string, catalog: seq<CatalogEntry>)
      requires currentGameId == Some(id) && storedCurrentId == Some(id)
      modifies this`yourHand, this`opponentHand, this`deckUs, this`deckNeutral, this`deckUssr,
        this`discard, this`removed, this`box, this`currentGameId, this`title, this`notes, this`savedGames
      ensures currentGameId == Some(id)
      ensures
        if id in old(savedGames) && old(savedGames)[id].cardPositions.Some? then
          && Areas() == RestoreSpec(old(savedGames)[id].cardPositions.value)
          && title == old(savedGames)[id].title && notes == old(savedGames)[id].notes
          && savedGames == old(savedGames)
        else
          && Areas() == Refresh(PlaceCatalogSpec(old(Areas()), catalog))
          && title == (if id in old(savedGames) then old(savedGames)[id].title else "")
          && notes == (if id in old(savedGames) then old(savedGames)[id].notes else "")
          && savedGames == Saved(old(savedGames), Some(id), title, notes, GetCardPositions(Areas()))
    {
      if id in savedGames {
        var game := savedGames[id];
        title, notes := game.title, game.notes;
        if game.cardPositions.Some? {
          RestoreCardPositions(game.cardPositions.value);
          assert savedGames == old(savedGames) && game == old(savedGames)[id];
          return;
        }
      } else {
        title, notes := "", "";
      }
      assert !(id in old(savedGames) && old(savedGames)[id].cardPositions.Some?);
      assert Areas() == old(Areas());
      LoadDefaults(catalog);
    }

    /** The catalog placed onto the table, then the save (of `loadGame`'s default branch). */
    method LoadDefaults(catalog: seq<CatalogEntry>)
      requires currentGameId == storedCurrentId
      modifies this`yourHand, this`opponentHand, this`deckUs, this`deckNeutral, this`deckUssr,
        this`discard, this`removed, this`box, this`savedGames, this`currentGameId
      ensures currentGameId == old(currentGameId)
      ensures Areas() == Refresh(PlaceCatalogSpec(old(Areas()), catalog))
      ensures savedGames == Saved(old(savedGames), currentGameId, title, notes, GetCardPositions(Areas()))
    {
      LoadCards(catalog);
      SaveCurrentGame();
    }

    /**
      `deleteCurrentGame`, with the user's answer to the confirmation as
      `confirmed`. Nothing happens without a current id, when the index does
      not list it, or when the user declines; otherwise the game leaves the
      index and the store, the current id is cleared, and so are the title,
      the notes and the table.
    */
    method DeleteCurrentGame(confirmed: bool)
      modifies this`yourHand, this`opponentHand, this`deckUs, this`deckNeutral, this`deckUssr,
        this`discard, this`removed, this`box, this`currentGameId, this`storedCurrentId,
        this`title, this`notes, this`gamesIndex, this`savedGames
      ensures var id := ResolveCurrentId(old(currentGameId), old(storedCurrentId));
        if Truthy(id) && IndexOfGame(old(gamesIndex), id.value) >= 0 && confirmed then
          && gamesIndex == RemoveEntry(old(gamesIndex), IndexOfGame(old(gamesIndex), id.value))
          && savedGames == old(savedGames) - {id.value}
          && currentGameId == None && storedCurrentId == None
          && !Truthy(ResolveCurrentId(currentGameId, storedCurrentId))
          && title == "" && notes == "" && Areas() == EmptyLayout
        else
          && gamesIndex == old(gamesIndex) && savedGames == old(savedGames)
          && currentGameId == id && storedCurrentId == old(storedCurrentId)
          && title == old(title) && notes == old(notes) && Areas() == old(Areas())
    {
      var id := GetCurrentGameId();
      if !Truthy(id) {
        return;
      }
      var index := IndexOfGame(gamesIndex, id.value);
      if index == -1 || !confirmed {
        return;
      }
      Forget(id.value, index);
    }

    /** The deletion proper: the game at `index` of the index, with id `id`, is forgotten and the page cleared. */
    method Forget(id: string, index: nat)
      requires index < |gamesIndex|
      modifies this`yourHand, this`opponentHand, this`deckUs, this`deckNeutral, this`deckUssr,
        this`discard, this`removed, this`box, this`currentGameId, this`storedCurrentId,
        this`title, this`notes, this`gamesIndex, this`savedGames
      ensures gamesIndex == RemoveEntry(old(gamesIndex), index) && savedGames == old(savedGames) - {id}
      ensures currentGameId == None && storedCurrentId == None
      ensures !Truthy(ResolveCurrentId(currentGameId, storedCurrentId))
      ensures title == "" && notes == "" && Areas() == EmptyLayout
    {
      gamesIndex := RemoveEntry(gamesIndex, index);
      savedGames := savedGames - {id};
      SetCurrentGameId(None);
      ClearedIdStaysCleared(currentGameId);
      title, notes := "", "";
      ClearAllCards();
    }

    /**
      The import handler once the file has been read and parsed (`None` when
      no file was chosen or it did not parse). The game is listed under
      `newId` with its own name or "Imported Game", stored under `newId`
      and loaded. The program takes the time as the new id; here it is a
      parameter that no listed game uses yet.
    */
    method ImportGame(file: Option<ImportedGame>, newId: string, catalog: seq<CatalogEntry>)
      requires IndexOfGame(gamesIndex, newId) == -1
      modifies this`yourHand, this`opponentHand, this`deckUs, this`deckNeutral, this`deckUssr,
        this`discard, this`removed, this`box, this`currentGameId, this`storedCurrentId,
        this`title, this`notes, this`gamesIndex, this`savedGames
      ensures file.None? ==>
        && gamesIndex == old(gamesIndex) && savedGames == old(savedGames) && Areas() == old(Areas())
        && currentGameId == old(currentGameId) && storedCurrentId == old(storedCurrentId)
        && title == old(title) && notes == old(notes)
      ensures file.Some? ==> gamesIndex == old(gamesIndex) + [GameEntry(newId, ImportedName(file.value))]
      ensures file.Some? ==> IndexOfGame(gamesIndex, newId) == |old(gamesIndex)|
      ensures UniqueIds(old(gamesIndex)) ==> UniqueIds(gamesIndex)
      ensures file.Some? ==>
        && currentGameId == Some(newId) && storedCurrentId == Some(newId)
        && title == file.value.title && notes == file.value.notes
      ensures file.Some? ==>
        var f := file.value;
        var stored := old(savedGames)[newId := GameData(newId, f.title, f.notes, f.cardPositions)];
        var pre := SavedBeforeSwitch(stored, ResolveCurrentId(old(currentGameId), old(storedCurrentId)),
                                     newId, old(title), old(notes), GetCardPositions(old(Areas())));
        if f.cardPositions.Some? then
          && Areas() == RestoreSpec(f.cardPositions.value)
          && savedGames == pre
        else
          && Areas() == Refresh(PlaceCatalogSpec(old(Areas()), catalog))
          && savedGames == Saved(pre, Some(newId), title, notes, GetCardPositions(Areas()))
    {
      if file.None? {
        return;
      }
      var f := file.value;
      AppendFreshEntry(gamesIndex, GameEntry(newId, ImportedName(f)));
      gamesIndex := gamesIndex + [GameEntry(newId, ImportedName(f))];
      savedGames := savedGames[newId := GameData(newId, f.title, f.notes, f.cardPositions)];
      LoadGame(newId, catalog);
    }
  }
}

=== FILE: snapshot.dfy ===
/**
  The saved form of the table (`getCardPositions`) and its rebuilding
  (`restoreCardPositions`).

  A saved game lists, for each of the eight areas, one record per card in
  area order. Restoring clears the table, then walks the areas and their
  records in order, appending one card per record; a placeholder record is
  rebuilt as a fresh placeholder that shows the deck average of the table
  as it stands at that moment. A refresh of the placeholders follows.
*/
module Snapshot {
  import opened Cards
  import opened Stats
  import opened Moves
  import opened CardText

  /** One card as a saved game writes it. */
  datatype CardRecord = CardRecord(name: string, ops: real, eventType: string, canBeRemoved: bool, war: string,
                                   isUnknown: bool)

  /** The saved positions: area id to its records. Areas missing from the map are skipped on restore. */
  type Positions = map<Loc, seq<CardRecord>>

  /**
    The record of one card: a placeholder is written under the name
    "Unknown Card"; the event type is read back from the card's side; a
    missing war is written as "early".
  */
  function ToRecord(c: Card): (r: CardRecord)
    ensures r.isUnknown == c.isUnknown && r.ops == c.ops && r.canBeRemoved == c.canBeRemoved
    ensures SideOf(r.eventType) == c.side && r.war != ""
    ensures c.isUnknown ==> r.name == UnknownName
  {
    CardRecord(if c.isUnknown then UnknownName else c.name, c.ops, SideName(c.side), c.canBeRemoved,
      WarOrEarly(c.war), c.isUnknown)
  }

  /**
    The page saves the name and ops that `getCardData` reads back from the
    card's text; `ToRecord` takes them from the card itself. For a real card
    whose ops is a whole number and whose name is non-empty and on one line,
    the two agree.
  */
  lemma ToRecordMatchesText(c: Card, n: nat)
    requires !c.isUnknown && c.ops == n as real && c.name != [] && SingleLine(c.name)
    ensures GetCardData(FormatCardText(n, c.name)) == CardData(ToRecord(c).ops, ToRecord(c).name)
  {
    ParseFormatRoundTrip(n, c.name);
  }

  function Records(s: seq<Card>): (r: seq<CardRecord>)
    ensures |r| == |s|
    ensures forall k :: 0 <= k < |s| ==> r[k] == ToRecord(s[k])
  {
    seq(|s|, k requires 0 <= k < |s| => ToRecord(s[k]))
  }

  /** `getCardPositions`: every one of the eight areas is written, in area order. */
  function GetCardPositions(lay: Layout): (p: Positions)
    ensures forall l :: l in p && p[l] == Records(lay.Get(l))
  {
    var p := map l | l in LocOrder :: Records(lay.Get(l));
    forall l ensures l in p {
      EveryLocListed(l);
    }
    p
  }

  /** A record is rebuilt as a placeholder when it says so or when it carries the placeholder's name. */
  predicate IsUnknownRecord(r: CardRecord) {
    r.isUnknown || r.name == UnknownName
  }

  /** What a known record reads as once it is rebuilt and saved again. */
  function Canonical(r: CardRecord): CardRecord {
    CardRecord(r.name, r.ops, SideName(SideOf(r.eventType)), r.canBeRemoved, WarOrEarly(r.war), false)
  }

  /** The record a placeholder showing `avg` is saved as. */
  function UnknownRecord(avg: real): CardRecord {
    CardRecord(UnknownName, avg, "neutral", true, "early", true)
  }

  /**
    The card rebuilt from a record: `createUnknownCardElement` showing the
    deck average `avg` for a placeholder record, `createCardElement`
    otherwise.
  */
  function FromRecord(r: CardRecord, avg: real): (c: Card)
    ensures IsUnknownRecord(r) ==> c == UnknownCard(avg) && ToRecord(c) == UnknownRecord(avg)
    ensures !IsUnknownRecord(r) ==> !c.isUnknown && ToRecord(c) == Canonical(r)
  {
    if IsUnknownRecord(r) then UnknownCard(avg)
    else Card(r.name, r.ops, SideOf(r.eventType), WarOrEarly(r.war), r.canBeRemoved, false)
  }

  /** A real card whose name is not the placeholder's and whose war is set comes back as it was. */
  lemma CardRoundTrip(c: Card, avg: real)
    requires !c.isUnknown && c.name != UnknownName && c.war != ""
    ensures FromRecord(ToRecord(c), avg) == c
  {
  }

  /** Restoring the records `recs` into area `l`, one card at a time. */
  function RestoreCards(lay: Layout, l: Loc, recs: seq<CardRecord>): (r: Layout)
    ensures |r.Get(l)| == |lay.Get(l)| + |recs|
    ensures forall m :: m != l ==> r.Get(m) == lay.Get(m)
    decreases |recs|
  {
    if recs == [] then lay
    else
      var before := RestoreCards(lay, l, recs[..|recs| - 1]);
      before.Put(l, before.Get(l) + [FromRecord(recs[|recs| - 1], DeckAverage(before))])
  }

  /** The areas `locs`, in that order, each restored from its records if the map has them. */
  function RestoreFrom(lay: Layout, p: Positions, locs: seq<Loc>): (r: Layout)
    ensures forall m :: m !in locs || m !in p ==> r.Get(m) == lay.Get(m)
    decreases |locs|
  {
    if locs == [] then lay
    else
      var before := RestoreFrom(lay, p, locs[..|locs| - 1]);
      var l := locs[|locs| - 1];
      if l in p then RestoreCards(before, l, p[l]) else before
  }

  /** Restoring record `k` after the records before it appends its card to the area. */
  lemma RestoreCardsStep(lay: Layout, l: Loc, recs: seq<CardRecord>, k: nat)
    requires k < |recs|
    ensures var before := RestoreCards(lay, l, recs[..k]);
      RestoreCards(lay, l, recs[..k + 1]) == before.Put(l, before.Get(l) + [FromRecord(recs[k], DeckAverage(before))])
  {
    assert recs[..k + 1][..k] == recs[..k];
  }

  /** `restoreCardPositions`: an empty table, the areas in saved order, then a refresh. */
  function RestoreSpec(p: Positions): (r: Layout)
    ensures forall l {:trigger AreaRecords(p, l)} :: |r.Get(l)| == |AreaRecords(p, l)|
    ensures forall l, k {:trigger AreaRecords(p, l)[k]} :: 0 <= k < |AreaRecords(p, l)| ==>
      (r.Get(l)[k].isUnknown <==> IsUnknownRecord(AreaRecords(p, l)[k]))
  {
    var built := RestoreFrom(EmptyLayout, p, LocOrder);
    LocOrderDistinct();
    forall l ensures |built.Get(l)| == |AreaRecords(p, l)|
      ensures forall k :: 0 <= k < |built.Get(l)| ==> Restored(built.Get(l)[k], AreaRecords(p, l)[k])
    {
      EveryLocListed(l);
      RebuiltArea(p, LocOrder, l);
    }
    Refresh(built)
  }

  /** The records of an area, or none when the map does not have the area. */
  function AreaRecords(p: Positions, l: Loc): seq<CardRecord> {
    if l in p then p[l] else []
  }

  /** The card rebuilt from `r`, with whatever ops a placeholder was given. */
  predicate Restored(c: Card, r: CardRecord) {
    if IsUnknownRecord(r) then c == UnknownCard(c.ops) else c == FromRecord(r, 0.0)
  }

  /** `s` is `base` followed by one rebuilt card per record. */
  predicate Rebuilt(s: seq<Card>, base: seq<Card>, recs: seq<CardRecord>) {
    && |s| == |base| + |recs|
    && s[..|base|] == base
    && forall k :: 0 <= k < |recs| ==> Restored(s[|base| + k], recs[k])
  }

  lemma {:induction false} RestoreCardsShape(lay: Layout, l: Loc, recs: seq<CardRecord>)
    ensures Rebuilt(RestoreCards(lay, l, recs).Get(l), lay.Get(l), recs)
    ensures forall m :: m != l ==> RestoreCards(lay, l, recs).Get(m) == lay.Get(m)
    decreases |recs|
  {
    if recs != [] {
      var before := RestoreCards(lay, l, recs[..|recs| - 1]);
      RestoreCardsShape(lay, l, recs[..|recs| - 1]);
      RebuiltPut(before, l, lay.Get(l), recs, DeckAverage(before));
    }
  }

  /** Appending the card rebuilt from the last record, at any average, extends what the others rebuilt. */
  lemma RebuiltPut(before: Layout, l: Loc, base: seq<Card>, recs: seq<CardRecord>, avg: real)
    requires recs != [] && Rebuilt(before.Get(l), base, recs[..|recs| - 1])
    ensures Rebuilt(before.Put(l, before.Get(l) + [FromRecord(recs[|recs| - 1], avg)]).Get(l), base, recs)
  {
    var init, r := recs[..|recs| - 1], recs[|recs| - 1];
    var last := FromRecord(r, avg);
    assert Restored(last, r);
    RebuiltSnoc(before.Get(l), base, init, last, r);
    assert init + [r] == recs;
  }

  /** One more rebuilt card after the ones already rebuilt. */
  lemma RebuiltSnoc(s: seq<Card>, base: seq<Card>, recs: seq<CardRecord>, c: Card, r: CardRecord)
    requires Rebuilt(s, base, recs) && Restored(c, r)
    ensures Rebuilt(s + [c], base, recs + [r])
  {
    var n := |base|;
    forall k | 0 <= k < |recs| + 1 ensures Restored((s + [c])[n + k], (recs + [r])[k]) {
      if k < |recs| {
        assert (s + [c])[n + k] == s[n + k];
      }
    }
    assert (s + [c])[..n] == s[..n];
  }

  predicate Distinct(locs: seq<Loc>) {
    forall i, j :: 0 <= i < j < |locs| ==> locs[i] != locs[j]
  }

  lemma {:induction false} RestoreFromShape(lay: Layout, p: Positions, locs: seq<Loc>)
    requires Distinct(locs)
    ensures forall l :: l in locs && l in p ==> Rebuilt(RestoreFrom(lay, p, locs).Get(l), lay.Get(l), p[l])
    ensures forall l :: !(l in locs && l in p) ==> RestoreFrom(lay, p, locs).Get(l) == lay.Get(l)
    decreases |locs|
  {
    if locs != [] {
      var init, last := locs[..|locs| - 1], locs[|locs| - 1];
      RestoreFromShape(lay, p, init);
      assert last !in init by {
        forall i | 0 <= i < |init| ensures init[i] != last {
          assert locs[i] == init[i];
        }
      }
      forall l ensures l in locs <==> l in init || l == last {
        if l in locs {
          var i :| 0 <= i < |locs| && locs[i] == l;
          if i < |init| {
            assert init[i] == l;
          }
        }
      }
      if last in p {
        RestoreCardsShape(RestoreFrom(lay, p, init), last, p[last]);
      }
    }
  }

  lemma LocOrderDistinct()
    ensures Distinct(LocOrder)
  {
  }

  /**
    Restoring then saving: a known record comes back in canonical form, at
    its place in its area; a placeholder record comes back as a placeholder
    showing the deck average of the rebuilt table; an area the map did not
    have comes back empty.
  */
  lemma RestoreThenSave(p: Positions, l: Loc)
    ensures var q := GetCardPositions(RestoreSpec(p));
      var avg := DeckAverage(RestoreFrom(EmptyLayout, p, LocOrder));
      && l in q && |q[l]| == |AreaRecords(p, l)|
      && forall k :: 0 <= k < |q[l]| ==>
        q[l][k] == if IsUnknownRecord(AreaRecords(p, l)[k]) then UnknownRecord(avg) else Canonical(AreaRecords(p, l)[k])
  {
    EveryLocListed(l);
    LocOrderDistinct();
    RestoreThenSaveOver(p, LocOrder, l);
  }

  lemma RestoreThenSaveOver(p: Positions, locs: seq<Loc>, l: Loc)
    requires Distinct(locs) && l in locs
    ensures var built := RestoreFrom(EmptyLayout, p, locs);
      var q := GetCardPositions(Refresh(built));
      && l in q && |q[l]| == |AreaRecords(p, l)|
      && forall k :: 0 <= k < |q[l]| ==>
        q[l][k] == if IsUnknownRecord(AreaRecords(p, l)[k]) then UnknownRecord(DeckAverage(built))
                   else Canonical(AreaRecords(p, l)[k])
  {
    var built := RestoreFrom(EmptyLayout, p, locs);
    RebuiltArea(p, locs, l);
    var s := built.Get(l);
    var recs := AreaRecords(p, l);
    var q := GetCardPositions(Refresh(built));
    forall k | 0 <= k < |q[l]|
      ensures q[l][k] == if IsUnknownRecord(recs[k]) then UnknownRecord(DeckAverage(built)) else Canonical(recs[k])
    {
      assert Restored(s[k], recs[k]);
      SaveRestoredCard(built, l, k, recs[k]);
    }
  }

  /** On an empty table, each listed area is rebuilt from its records alone. */
  lemma RebuiltArea(p: Positions, locs: seq<Loc>, l: Loc)
    requires Distinct(locs) && l in locs
    ensures |RestoreFrom(EmptyLayout, p, locs).Get(l)| == |AreaRecords(p, l)|
    ensures forall k :: 0 <= k < |AreaRecords(p, l)| ==>
      Restored(RestoreFrom(EmptyLayout, p, locs).Get(l)[k], AreaRecords(p, l)[k])
  {
    RestoreFromShape(EmptyLayout, p, locs);
    var s := RestoreFrom(EmptyLayout, p, locs).Get(l);
    var none: seq<Card> := [];
    assert Rebuilt(s, none, AreaRecords(p, l));
    RebuiltFromNothing(s, AreaRecords(p, l));
  }

  /** An area rebuilt onto nothing holds exactly one rebuilt card per record. */
  lemma RebuiltFromNothing(s: seq<Card>, recs: seq<CardRecord>)
    requires Rebuilt(s, [], recs)
    ensures |s| == |recs| && forall k :: 0 <= k < |recs| ==> Restored(s[k], recs[k])
  {
    var none: seq<Card> := [];
    forall k | 0 <= k < |recs| ensures Restored(s[k], recs[k]) {
      assert Restored(s[|none| + k], recs[k]);
    }
  }

  /** The record saved for a rebuilt card after the refresh. */
  lemma SaveRestoredCard(built: Layout, l: Loc, k: nat, r: CardRecord)
    requires k < |built.Get(l)| && Restored(built.Get(l)[k], r)
    ensures k < |GetCardPositions(Refresh(built))[l]|
    ensures GetCardPositions(Refresh(built))[l][k]
      == if IsUnknownRecord(r) then UnknownRecord(DeckAverage(built)) else Canonical(r)
  {
    RefreshKeepsCards(built, l, k);
  }

  /** Every card of the table can be written and read back as it is. */
  predicate Restorable(lay: Layout) {
    forall l, k :: 0 <= k < |lay.Get(l)| ==>
      !lay.Get(l)[k].isUnknown && lay.Get(l)[k].name != UnknownName && lay.Get(l)[k].war != ""
  }

  /** Saving a table without placeholders and restoring it gives back the same table. */
  lemma SaveThenRestore(lay: Layout)
    requires Restorable(lay)
    ensures RestoreSpec(GetCardPositions(lay)) == lay
  {
    LocOrderDistinct();
    forall l ensures l in LocOrder {
      EveryLocListed(l);
    }
    SaveThenRestoreOver(lay, LocOrder);
  }

  lemma SaveThenRestoreOver(lay: Layout, locs: seq<Loc>)
    requires Restorable(lay)
    requires Distinct(locs) && forall l :: l in locs
    ensures Refresh(RestoreFrom(EmptyLayout, GetCardPositions(lay), locs)) == lay
  {
    var p := GetCardPositions(lay);
    var built := RestoreFrom(EmptyLayout, p, locs);
    forall l ensures built.Get(l) == lay.Get(l) {
      var s := built.Get(l);
      RebuiltArea(p, locs, l);
      forall k | 0 <= k < |s| ensures s[k] == lay.Get(l)[k] {
        assert Restored(s[k], p[l][k]);
        CardRoundTrip(lay.Get(l)[k], 0.0);
      }
    }
    LayoutExtensionality(built, lay);
    RefreshWithoutUnknown(lay);
  }
}

=== FILE: stats.dfy ===
/**
  The statistics of `calculateAverageOps` and `calculateDeckAverage`: the
  ops of an area summed with `reduce`, divided by the number of cards, and
  0 for an empty area. The deck is the three subsections taken together.
*/
module Stats {
  import opened Cards
  import opened Ordering

  /** The `reduce` that adds up the ops of a list of cards, left to right. */
  function SumOps(s: seq<Card>): real {
    if s == [] then 0.0 else SumOps(s[..|s| - 1]) + s[|s| - 1].ops
  }

  /** `calculateAverageOps`. */
  function AverageOps(s: seq<Card>): (avg: real)
    ensures |s| == 0 ==> avg == 0.0
    ensures |s| > 0 ==> avg * (|s| as real) == SumOps(s)
  {
    if |s| == 0 then 0.0 else SumOps(s) / (|s| as real)
  }

  /** `calculateDeckAverage`: the average over the three deck subsections together. */
  function DeckAverage(lay: Layout): (avg: real)
    ensures lay.DeckCards() == [] ==> avg == 0.0
    ensures lay.DeckCards() != [] ==>
      avg * (|lay.DeckCards()| as real) == SumOps(lay.deckUs) + SumOps(lay.deckNeutral) + SumOps(lay.deckUssr)
  {
    var pool := lay.DeckCards();
    assert SumOps(pool) == SumOps(lay.deckUs) + SumOps(lay.deckNeutral) + SumOps(lay.deckUssr) by {
      SumOpsAppend(lay.deckUs, lay.deckNeutral);
      SumOpsAppend(lay.deckUs + lay.deckNeutral, lay.deckUssr);
    }
    AverageOps(pool)
  }

  lemma {:induction false} SumOpsAppend(a: seq<Card>, b: seq<Card>)
    ensures SumOps(a + b) == SumOps(a) + SumOps(b)
  {
    if b != [] {
      assert (a + b)[..|a + b| - 1] == a + b[..|b| - 1];
      SumOpsAppend(a, b[..|b| - 1]);
    } else {
      assert a + b == a;
    }
  }

  lemma SumOpsCons(c: Card, s: seq<Card>)
    ensures SumOps([c] + s) == c.ops + SumOps(s)
  {
    SumOpsAppend([c], s);
    assert [c][..0] == [];
  }

  lemma {:induction false} SumOpsInsert(x: Card, s: seq<Card>)
    ensures SumOps(Insert(x, s)) == x.ops + SumOps(s)
  {
    if s == [] {
      SumOpsCons(x, s);
    } else if CardLe(x, s[0]) {
      SumOpsCons(x, s);
    } else {
      SumOpsInsert(x, s[1..]);
      SumOpsCons(s[0], Insert(x, s[1..]));
      SumOpsCons(s[0], s[1..]);
      assert [s[0]] + s[1..] == s;
    }
  }

  /** Sorting an area does not change its ops total. */
  lemma {:induction false} SumOpsSorted(s: seq<Card>)
    ensures SumOps(SortCards(s)) == SumOps(s)
  {
    if s != [] {
      SumOpsSorted(s[1..]);
      SumOpsInsert(s[0], SortCards(s[1..]));
      SumOpsCons(s[0], s[1..]);
      assert [s[0]] + s[1..] == s;
    }
  }

  /** Sorting an area does not change its average. */
  lemma AverageOfSorted(s: seq<Card>)
    ensures AverageOps(SortCards(s)) == AverageOps(s)
  {
    SumOpsSorted(s);
  }

  lemma {:induction false} SumOpsBounds(s: seq<Card>, lo: real, hi: real)
    requires forall k :: 0 <= k < |s| ==> lo <= s[k].ops <= hi
    ensures (|s| as real) * lo <= SumOps(s) <= (|s| as real) * hi
  {
    if s != [] {
      SumOpsBounds(s[..|s| - 1], lo, hi);
    }
  }

  /** The average of a non-empty area lies between its least and its greatest ops. */
  lemma AverageBounds(s: seq<Card>, lo: real, hi: real)
    requires |s| > 0
    requires forall k :: 0 <= k < |s| ==> lo <= s[k].ops <= hi
    ensures lo <= AverageOps(s) <= hi
  {
    SumOpsBounds(s, lo, hi);
    var n := |s| as real;
    var avg := AverageOps(s);
    ScaleLe(lo, avg, n);
    ScaleLe(avg, hi, n);
  }

  lemma ScaleLe(a: real, b: real, n: real)
    requires n > 0.0 && a * n <= b * n
    ensures a <= b
  {
    if b < a {
      ScaleLt(b, a, n);
      assert false;
    }
  }

  lemma ScaleLt(a: real, b: real, n: real)
    requires n > 0.0 && a < b
    ensures a * n < b * n
  {
    assert (b - a) * n > 0.0;
  }
}

=== FILE: store.dfy ===
/**
  The values kept in the browser's key-value store: the index of games
  (`cardCounter_games`), one saved game per id (`cardCounter_game_<id>`)
  and the id of the current game (`cardCounter_currentGame`).
*/
module GameStore {
  import opened Snapshot

  datatype Option<T> = None | Some(value: T)

  /** One entry of the games index. */
  datatype GameEntry = GameEntry(id: string, name: string)

  /**
    A saved game. The title and notes read as "" when absent; the card
    positions may be absent, as in an imported file that has none.
  */
  datatype GameData = GameData(id: string, title: string, notes: string, cardPositions: Option<Positions>)

  /** The content of an imported file, once parsed. An absent name is `None`. */
  datatype ImportedGame = ImportedGame(name: Option<string>, title: string, notes: string,
                                       cardPositions: Option<Positions>)

  /** A game id is truthy when present and not empty. */
  predicate Truthy(id: Option<string>) {
    id.Some? && id.value != ""
  }

  /**
    `getCurrentGameId`: the id held in memory when it is truthy, otherwise
    the one in the store (which the program then keeps in memory).
  */
  function ResolveCurrentId(memory: Option<string>, stored: Option<string>): (id: Option<string>)
    ensures Truthy(memory) ==> id == memory
    ensures !Truthy(memory) ==> id == stored
  {
    if Truthy(memory) then memory else stored
  }

  /**
    What `setCurrentGameId` leaves in the store, as written: the store
    keeps strings, so an absent id is written as the four letters "null".
  */
  function StoredIdAsWritten(id: Option<string>): (stored: Option<string>)
    ensures stored.Some?
    ensures id.Some? ==> stored == id
  {
    Some(if id.Some? then id.value else "null")
  }

  /** What `setCurrentGameId` should leave in the store: the id, or no entry at all. */
  function StoredId(id: Option<string>): (stored: Option<string>)
    ensures stored.Some? <==> id.Some?
    ensures id.Some? ==> stored == id
  {
    if id.Some? then id else None
  }

  /**
    As written, once the current game is deleted the next look-up of the
    current id finds the string "null" in the store, which is truthy, so the
    next autosave writes a game under the id "null".
  */
  lemma ClearedIdAsWrittenReadsNull()
    ensures ResolveCurrentId(None, StoredIdAsWritten(None)) == Some("null")
    ensures Truthy(ResolveCurrentId(None, StoredIdAsWritten(None)))
  {
  }

  /** With the corrected store, a cleared id stays cleared and no autosave follows. */
  lemma ClearedIdStaysCleared(memory: Option<string>)
    requires !Truthy(memory)
    ensures ResolveCurrentId(memory, StoredId(None)) == None
    ensures !Truthy(ResolveCurrentId(memory, StoredId(None)))
  {
  }

  /** `findIndex` of the entry with id `id`, or -1. */
  function IndexOfGame(games: seq<GameEntry>, id: string): (r: int)
    ensures -1 <= r < |games|
    ensures r == -1 <==> forall k :: 0 <= k < |games| ==> games[k].id != id
    ensures r >= 0 ==> games[r].id == id && forall k :: 0 <= k < r ==> games[k].id != id
  {
    if games == [] then -1
    else if games[0].id == id then 0
    else
      var r := IndexOfGame(games[1..], id);
      if r == -1 then -1 else r + 1
  }

  /** `splice(index, 1)`: the index without the entry at `index`. */
  function RemoveEntry(games: seq<GameEntry>, index: nat): (r: seq<GameEntry>)
    requires index < |games|
    ensures |r| == |games| - 1
    ensures forall k :: 0 <= k < |r| ==> r[k] == if k < index then games[k] else games[k + 1]
  {
    games[..index] + games[index + 1..]
  }

  /** No two entries of the index share an id. */
  predicate UniqueIds(games: seq<GameEntry>) {
    forall i, j :: 0 <= i < j < |games| ==> games[i].id != games[j].id
  }

  /**
    An entry listed under an id not yet in the index is found at the end,
    and the ids stay unique.
  */
  lemma {:induction false} AppendFreshEntry(games: seq<GameEntry>, e: GameEntry)
    requires IndexOfGame(games, e.id) == -1
    ensures UniqueIds(games) ==> UniqueIds(games + [e])
    ensures IndexOfGame(games + [e], e.id) == |games|
  {
    if games != [] {
      assert (games + [e])[1..] == games[1..] + [e];
      assert IndexOfGame(games[1..], e.id) == -1;
      AppendFreshEntry(games[1..], e);
    }
  }

  /** Removing the first entry with an id from an index with unique ids leaves no entry with that id. */
  lemma RemoveEntryForgets(games: seq<GameEntry>, id: string)
    requires UniqueIds(games)
    requires IndexOfGame(games, id) >= 0
    ensures forall g :: g in RemoveEntry(games, IndexOfGame(games, id)) ==> g.id != id
    ensures forall g :: g in games && g.id != id ==> g in RemoveEntry(games, IndexOfGame(games, id))
  {
    var index := IndexOfGame(games, id);
    var r := RemoveEntry(games, index);
    forall g | g in r ensures g.id != id {
      var k :| 0 <= k < |r| && r[k] == g;
      if k >= index {
        assert games[index].id != games[k + 1].id;
      }
    }
    forall g | g in games && g.id != id ensures g in r {
      var k :| 0 <= k < |games| && games[k] == g;
      if k < index {
        assert r[k] == g;
      } else {
        assert k != index;
        assert r[k - 1] == g;
      }
    }
  }

  /** The name an imported game is listed under. */
  function ImportedName(file: ImportedGame): (name: string)
    ensures name != ""
    ensures Truthy(file.name) ==> name == file.name.value
  {
    if Truthy(file.name) then file.name.value else "Imported Game"
  }

  /**
    `saveCurrentGame` on the saved games: with a truthy current id the game
    is written under that id with the title, notes and card positions
    given, replacing any game saved there; without one nothing is written.
  */
  function Saved(games: map<string, GameData>, id: Option<string>, title: string, notes: string,
                 positions: Positions): (r: map<string, GameData>)
    ensures !Truthy(id) ==> r == games
    ensures Truthy(id) ==> r.Keys == games.Keys + {id.value}
    ensures Truthy(id) ==> r[id.value] == GameData(id.value, title, notes, Some(positions))
    ensures forall g :: g in games && (!Truthy(id) || g != id.value) ==> g in r && r[g] == games[g]
  {
    if Truthy(id) then games[id.value := GameData(id.value, title, notes, Some(positions))] else games
  }

  /**
    The save `loadGame` makes before switching: only when the current id is
    truthy and differs from the game being loaded. It never touches the
    entry of the game being loaded.
  */
  function SavedBeforeSwitch(games: map<string, GameData>, current: Option<string>, id: string,
                             title: string, notes: string, positions: Positions): (r: map<string, GameData>)
    ensures id in r <==> id in games
    ensures id in games ==> r[id] == games[id]
    ensures Truthy(current) && current.value != id ==>
      current.value in r && r[current.value] == GameData(current.value, title, notes, Some(positions))
    ensures !(Truthy(current) && current.value != id) ==> r == games
  {
    if Truthy(current) && current.value != id then Saved(games, current, title, notes, positions) else games
  }
}
